=== FILE: README.md ===
# Zephyr system power management: state tables, notifiers and the idle path

This project models the core of Zephyr's system power-management subsystem
in Dafny and proves properties of it:

- **Power-state tables** (`subsys/pm/state.c`). Each CPU has a table of
  power states built from the devicetree. The build-time assertion requires
  every state's minimum residency to be at least its exit latency, with an
  absent property reading as 0. `pm_state_cpu_get_all` is the bounds-checked
  table query. `pm_state_get_index` is the first-match search by
  (state, substate), with its `uint8_t` loop counter and `int8_t` result
  modelled explicitly.
- **The public contract of `include/zephyr/pm/pm.h`**:
  - notifier registration and unregistration;
  - the rule saying which notifiers fire on a transition: entry callbacks
    when leaving `PM_STATE_ACTIVE`, exit callbacks when returning to it;
  - the one-shot `pm_state_force`;
  - `pm_state_next_get`;
  - the `-ENOSYS` / `NULL` stubs used when `CONFIG_PM` is off.
- **An abstract device model and the idle-path transition.** Devices are
  suspended in reverse initialization order and resumed in initialization
  order. Devices that are not ready, are locked, or are held by runtime
  references are skipped. The model also covers the busy flag, the state
  lock and runtime get/put/enable/disable. One idle-thread entry is a
  function that returns the trace of device callbacks, notifier callbacks
  and `pm_state_set` / `pm_state_exit_post_ops` calls. Each callback entry
  and the `pm_state_set` entry record the device states visible at that
  moment; the `pm_state_exit_post_ops` entry records only the state.
- **The power-management test suite's assertions**
  (`tests/subsys/pm/power_mgmt/src/main.c`), restated as lemmas about that
  model.

Files, one module each:

| file | module | contents |
|---|---|---|
| `types.dfy` | `PmTypes` | C integer widths, `Option`, `enum pm_state`, `struct pm_state_info`, errno values |
| `state_table.dfy` | `PmStateTable` | consistency check, table query, index searches |
| `notifier.dfy` | `PmNotifier` | notifier registry, dispatch, transition rule, `CONFIG_PM`-off stubs |
| `policy.dfy` | `PmPolicy` | forced state, per-CPU decision, `pm_state_next_get` |
| `device.dfy` | `PmDevice` | device record, action callbacks, busy, lock, runtime PM |
| `system.dfy` | `PmSystem` | suspend and resume passes, the idle-path transition and its trace |
| `power_mgmt_test.dfy` | `PowerMgmtTest` | the test suite's scenarios as lemmas |

## Model

| member | source | states |
|---|---|---|
| PmTypes.ToInt8 | subsys/pm/state.c:91-101 | the `uint8_t` index returned as `int8_t` is congruent to it modulo 256 and is non-negative exactly when the index is below 128 |
| PmStateTable.FailingStates | subsys/pm/state.c:20-26 | a (cpu, index) pair is reported exactly when that state's residency-versus-latency assertion fails, absent properties reading as 0 |
| PmStateTable.FailingCpus | subsys/pm/state.c:35-40 | over the CPU nodes, a pair is reported exactly when it names an existing state of an existing CPU that fails the assertion |
| PmStateTable.ConsistencyCheck | subsys/pm/state.c:20-40 | the build goes through (no failure) if and only if every listed power state of every CPU node is consistent; each reported failure names a real inconsistent state |
| PmStateTable.NoFailureIffConsistent | subsys/pm/state.c:20-40 | no failing position is recorded over all CPU nodes if and only if every listed state of every node is consistent |
| PmStateTable.ToStateInfo | subsys/pm/state.c:42-44 | the table entry keeps the node's state and substate, and is consistent exactly when the node passes the assertion |
| PmStateTable.OkayTables | subsys/pm/state.c:47-65 | a table is built exactly for the `/cpus` children whose status is okay, and there are at most as many tables as children |
| PmStateTable.OkayTablesAppend | subsys/pm/state.c:58-65 | the tables follow devicetree order: a further child adds its table at the end exactly when its status is okay |
| PmStateTable.OkayTablesAllOkay | subsys/pm/state.c:58-65 | when every child is okay, there is one table per child and the `c`-th table is the `c`-th child's |
| PmStateTable.ConsistentTablesWellFormed | subsys/pm/state.c:20-65 | when the build-time check over every `/cpus` child passes, every table built from the okay children has residency at least latency in every entry; when every child is okay, the converse holds too |
| PmStateTable.DisabledNodeStopsBuild | subsys/pm/state.c:38-65 | a disabled CPU node with an inconsistent state stops the build although no table is built from it |
| PmStateTable.CpuGetAll | subsys/pm/state.c:67-76 | a CPU index past the table list returns 0 and leaves the out-pointer untouched; otherwise it stores that CPU's table and returns its count |
| PmStateTable.CpuGetAllCountIsLength | subsys/pm/state.c:57-76 | when both arrays come from the same CPU walk, the returned count is the length of the table handed out, and a non-zero count implies the CPU exists |
| PmStateTable.Scan | subsys/pm/state.c:93-98 | the loop returns the lowest index in range whose entry has the (state, substate) pair, or none when no entry in range has it |
| PmStateTable.CpuGetIndex | subsys/pm/state.c:91-101 | a non-negative result is the first match; -1 means no match or a wrapped index; no match always gives -1 |
| PmStateTable.CpuGetIndexIsFirstMatch | subsys/pm/state.c:91-101 | whenever a first match exists at index k, the result is k converted to `int8_t` |
| PmStateTable.CpuGetIndexFaithful | subsys/pm/state.c:91-101 | with at most 128 entries, -1 is returned if and only if no entry matches, and any other result is the first matching index |
| PmStateTable.CpuGetIndexWrapsNegative | subsys/pm/state.c:91-101 | a 255-entry table whose only match is at index 254 answers -2, a negative result for a state that exists |
| PmStateTable.SmpGetIndex | subsys/pm/state.c:78-89 | below 256 entries the search returns the first match or -1; with 256 or more entries and no match among the first 256, the `uint8_t` counter wraps and the loop never ends |
| PmStateTable.GetIndex | subsys/pm/state.c:78-106 | single-CPU builds answer exactly the search of CPU 0's table, which always returns; SMP builds answer exactly the search of the shared list, with its `uint8_t` wrap and its non-terminating case; both are faithful for at most 128 entries |
| PmStateTable.SmpGetIndexIgnoresCpuTables | subsys/pm/state.c:78-89 | on SMP builds the answer depends only on the shared list, not on the per-CPU tables |
| PmNotifier.Register | include/zephyr/pm/pm.h:83-242 | with PM on, 0 if and only if some power-state node has the (state, substate) and the notifier was not linked, in which case it is appended; otherwise a negative code and no change; uniqueness and "every registration names a configured state" are preserved; with PM off (the stub), `-ENOSYS` and the registry unchanged |
| PmNotifier.Unregister | include/zephyr/pm/pm.h:167-252 | with PM on, 0 if and only if the notifier object (found by its identity) is linked for that (state, substate); afterwards it is not linked, the other registrations are all kept, and a registry without duplicate notifiers stays without; otherwise a negative code and no change; with PM off (the stub), `-ENOSYS` and the registry unchanged |
| PmNotifier.Without | include/zephyr/pm/pm.h:167-172 | the registry keeps exactly the registrations of other notifiers |
| PmNotifier.WithoutPreservesOrder | include/zephyr/pm/pm.h:167-172 | removal keeps registration order: removing a notifier from a registry made of two parts removes it from each part, in order |
| PmNotifier.Dispatch | include/zephyr/pm/pm.h:57-73 | the calls are exactly those of the notifiers registered for the state whose direction bitmask selects the direction, each told that direction |
| PmNotifier.DispatchPreservesOrder | include/zephyr/pm/pm.h:57-73 | dispatch over a registry extended by later registrations is the earlier calls followed by the later ones |
| PmNotifier.RegisterThenDispatch | include/zephyr/pm/pm.h:152-165 | a freshly registered notifier is called last, after every earlier registration, in each direction its bitmask selects |
| PmNotifier.WithoutKeepsUnique | include/zephyr/pm/pm.h:167-172 | removing a notifier from a registry without duplicate notifiers leaves one without duplicates |
| PmNotifier.UnregisterSilences | include/zephyr/pm/pm.h:167-172 | after a successful unregistration the notifier's callbacks are never called again, in either direction, for any state |
| PmNotifier.RegisterUnregisterRoundTrip | include/zephyr/pm/pm.h:152-180 | for a configured state, register then unregister gives back the original registry, both returning 0; a second unregister is refused with a negative code |
| PmNotifier.WithoutAbsent | include/zephyr/pm/pm.h:167-172 | removing a notifier that is not linked leaves the registry unchanged |
| PmNotifier.TransitionCalls | include/zephyr/pm/pm.h:42-45 | entry calls only when leaving Active for another state, exit calls only when returning to Active, none when the state does not change |
| PmNotifier.TransitionCallsComplete | include/zephyr/pm/pm.h:36-45 | every notifier registered for the target state with the entry bit is called on leaving Active; every one registered for the left state with the exit bit is called on returning |
| PmPolicy.Force | include/zephyr/pm/pm.h:138-150 | reports success and stores the state as that CPU's pending forced state, other CPUs untouched |
| PmPolicy.Decide | include/zephyr/pm/pm.h:138-150 | a pending forced state overrides the policy's choice and is consumed; the decided state becomes the CPU's next state; other CPUs untouched |
| PmPolicy.ForceIsOneShot | include/zephyr/pm/pm.h:139-142 | the forced state is used by exactly the next idle entry; the entry after that is back to the policy's choice |
| PmPolicy.ForceIsPerCpu | include/zephyr/pm/pm.h:146-150 | forcing a state on one CPU does not change another CPU's decision |
| PmPolicy.NextGet | include/zephyr/pm/pm.h:182-259 | with PM on, the state chosen for that CPU; with PM off (the stub), the null pointer for any CPU index |
| PmPolicy.NextGetReportsDecision | include/zephyr/pm/pm.h:182-191 | during a transition, `pm_state_next_get` reports the state just decided for that CPU |
| PmDevice.RunAction | tests/subsys/pm/power_mgmt/src/main.c:135-159 | a device that is not ready, is locked, or is already in the target state is left alone without a callback; otherwise the callback sees the device in the transient state, and the device reaches the target only on success |
| PmDevice.BusyUpdate | tests/subsys/pm/power_mgmt/src/main.c:417-425 | only the busy flag of that device changes; the device states are unchanged |
| PmDevice.AnyBusy | tests/subsys/pm/power_mgmt/src/main.c:410-432 | true if and only if some device is busy |
| PmDevice.LockUpdate | tests/subsys/pm/power_mgmt/src/main.c:434-447 | only the lock flag of that device changes |
| PmDevice.RuntimeGet | tests/subsys/pm/power_mgmt/src/main.c:366-392 | takes a reference; the first one leaves the device Active; fails exactly when that first resume is attempted and fails, in which case nothing changes; only that device's callback runs |
| PmDevice.RuntimePut | tests/subsys/pm/power_mgmt/src/main.c:366-392 | drops a reference; the last one leaves the device Suspended; fails exactly when no reference is held or the final suspend fails, in which case nothing changes |
| PmDevice.RuntimeEnable | tests/subsys/pm/power_mgmt/src/main.c:346-347 | hands the device to runtime PM with no reference, suspending it if active; fails exactly when that suspend fails |
| PmDevice.RuntimeDisable | tests/subsys/pm/power_mgmt/src/main.c:339-340 | takes the device back from runtime PM, resuming it if suspended; fails exactly when that resume fails; the reference count is kept |
| PmDevice.RuntimeEnableDisableRoundTrip | tests/subsys/pm/power_mgmt/src/main.c:339-347 | runtime enable on an idle, active, ready, unlocked device suspends it with one callback; runtime disable then resumes it with one callback and gives back exactly the original devices |
| PmDevice.RuntimeGetPutBalanced | tests/subsys/pm/power_mgmt/src/main.c:374-387 | while a reference is held, a further get followed by a put gives back exactly the same devices, with no callback |
| PmSystem.SuspendDevices | tests/subsys/pm/power_mgmt/src/main.c:41-56 | the pass keeps the number of devices and records for resumption only indices it visited; what it does to them is stated by the SuspendPass lemmas below |
| PmSystem.SuspendPassFrame | tests/subsys/pm/power_mgmt/src/main.c:41-56 | the suspend pass leaves every device it does not act on unchanged; exactly the devices it records for resumption end up suspended, and every other device, including the one whose callback failed and those after it in the pass, is left as it was (no rollback) |
| PmSystem.SuspendPassEvents | tests/subsys/pm/power_mgmt/src/main.c:46-48 | the suspend pass runs only suspend callbacks, and only those of visited devices that are eligible and not yet suspended |
| PmSystem.SuspendPassMoved | tests/subsys/pm/power_mgmt/src/main.c:46-48 | the devices recorded for resumption are listed from the highest index down, and each is one the pass acts on and has suspended |
| PmSystem.SuspendPassOk | tests/subsys/pm/power_mgmt/src/main.c:41-56 | the suspend pass succeeds if and only if none of the callbacks it runs fails, and then every device it acts on is recorded for resumption |
| PmSystem.SuspendPassAborts | tests/subsys/pm/power_mgmt/src/main.c:41-56 | a failed suspend pass stops at the first failing callback: the failing device is the highest acted-on device whose suspend fails, its call is the last event, and no device below it is called |
| PmSystem.SuspendPass | tests/subsys/pm/power_mgmt/src/main.c:41-56 | all of the suspend-pass properties above, together |
| PmSystem.SuspendPassViews | tests/subsys/pm/power_mgmt/src/main.c:97-104 | each suspend callback sees the later-initialized devices that the pass suspends already suspended, and every earlier device untouched |
| PmSystem.SuspendPassOrder | tests/subsys/pm/power_mgmt/src/main.c:46-48 | suspend callbacks run in strictly decreasing device index |
| PmSystem.ResumeDevices | tests/subsys/pm/power_mgmt/src/main.c:41-56 | the pass keeps the number of devices; what it does to them is stated by the ResumePass lemmas below |
| PmSystem.ResumePassFrame | tests/subsys/pm/power_mgmt/src/main.c:41-56 | the resume pass leaves every device not listed for resumption unchanged, and changes the listed ones only by making them Active |
| PmSystem.ResumePassEvents | tests/subsys/pm/power_mgmt/src/main.c:50-52 | the resume pass runs only resume callbacks, and only those of listed devices that are ready and not locked |
| PmSystem.ResumePassOk | tests/subsys/pm/power_mgmt/src/main.c:41-56 | the resume pass succeeds if and only if none of the callbacks it runs fails, and then every listed device that is ready and not locked is Active |
| PmSystem.ResumePass | tests/subsys/pm/power_mgmt/src/main.c:41-56 | all of the resume-pass properties above, together |
| PmSystem.ResumePassViews | tests/subsys/pm/power_mgmt/src/main.c:88-96 | each resume callback sees the earlier-initialized moved devices already active and the later ones still suspended |
| PmSystem.ResumePassComplete | tests/subsys/pm/power_mgmt/src/main.c:88-96 | a successful resume pass runs the callback of every moved device that needs it, with the view described above |
| PmSystem.ResumePassOrder | tests/subsys/pm/power_mgmt/src/main.c:50-52 | resume callbacks run in strictly increasing device index |
| PmSystem.SuspendResumeRoundTrip | tests/subsys/pm/power_mgmt/src/main.c:41-56 | when every callback succeeds, resuming the devices the suspend pass moved gives back exactly the original devices |
| PmSystem.SuspendPassResult | tests/subsys/pm/power_mgmt/src/main.c:199-210 | after a successful suspend pass every device the pass acts on is in state Suspended and every other device keeps its state |
| PmSystem.IdleCycle | include/zephyr/pm/pm.h:204-226 | the policy is updated as decided, except that a failed transition leaves the CPU's next state at Active; the registry is kept; the number of devices is kept; an Active decision succeeds with no callback and no device change |
| PmSystem.IdleCycleFrame | tests/subsys/pm/power_mgmt/src/main.c:41-56 | only device states change, and only for devices the suspend pass acts on; when a suspend callback fails on a non-Active decision the transition fails with only suspend callbacks in the trace and the CPU's next state falls back to Active; otherwise the decided next state is kept |
| PmSystem.IdleCycleCalls | tests/subsys/pm/power_mgmt/src/main.c:212-216 | `pm_state_set` is only called with the decided state, never Active; only devices the suspend pass acts on have callbacks |
| PmSystem.IdleCycleTrace | tests/subsys/pm/power_mgmt/src/main.c:192-197 | entry notifiers and suspend callbacks come before `pm_state_set`; exit notifiers and resume callbacks come after; `pm_state_set` is called if and only if the decision is not Active and the suspend pass succeeds |
| PmSystem.IdleCycleParts | include/zephyr/pm/pm.h:204-226 | a transition that reaches the hardware consists of the suspend pass, the entry notifiers dispatched for the decided state, the two hooks, the resume pass and the exit notifiers |
| PmSystem.IdleCycleEntry | tests/subsys/pm/power_mgmt/src/main.c:262-280 | entry notifiers and `pm_state_set` see the devices as the suspend pass left them; exactly the entry-selecting notifiers registered for the decided state are called |
| PmSystem.IdleCycleExit | tests/subsys/pm/power_mgmt/src/main.c:281-292 | exit notifiers see the devices as the resume pass left them; exactly the exit-selecting notifiers registered for the state are called |
| PmSystem.IdleCycleNotifierDirections | tests/subsys/pm/power_mgmt/src/main.c:262-292 | every notifier callback is told either entry or exit |
| PmSystem.IdleCycleRestores | tests/subsys/pm/power_mgmt/src/main.c:288-290 | with settled devices and no failing callback, the transition succeeds and gives back exactly the devices it started from |
| PmSystem.ExcludedDeviceUntouched | tests/subsys/pm/power_mgmt/src/main.c:135-159 | a device that is not ready, is locked or is runtime-held keeps its state and never has its callback run, over any number of idle entries |
| PmSystem.IdleCycleDeviceOrder | tests/subsys/pm/power_mgmt/src/main.c:41-56 | within one transition, suspend callbacks run in decreasing and resume callbacks in increasing device index |
| PowerMgmtTest.DeviceOrderSuspend | tests/subsys/pm/power_mgmt/src/main.c:97-104 | B's suspend callback sees C suspended and A active |
| PowerMgmtTest.DeviceOrderSuspended | tests/subsys/pm/power_mgmt/src/main.c:41-56 | the pass over A, B and C succeeds and suspends all three |
| PowerMgmtTest.DeviceOrderResume | tests/subsys/pm/power_mgmt/src/main.c:88-96 | B's resume callback sees A active and C suspended |
| PowerMgmtTest.DeviceOrder | tests/subsys/pm/power_mgmt/src/main.c:394-405 | going idle with A, B and C: B's views are as asserted, callbacks are in pass order, and the transition succeeds and restores the devices |
| PowerMgmtTest.SuspendFailureKeepsPartialState | tests/subsys/pm/power_mgmt/src/main.c:41-56 | with B's suspend callback failing, C stays suspended and B and A are left as they were; the only callbacks are C's and then B's, each with its view, and the transition fails |
| PowerMgmtTest.PowerIdle | tests/subsys/pm/power_mgmt/src/main.c:243-252 | when the policy answers Active, no callback or hook runs and the devices are unchanged |
| PowerMgmtTest.NotReadyUntouched | tests/subsys/pm/power_mgmt/src/main.c:143-152 | a device whose initialization failed never has its callback entered |
| PowerMgmtTest.DeviceStateLock | tests/subsys/pm/power_mgmt/src/main.c:173-183 | a locked active device is seen active by `pm_state_set` and never has its callback run |
| PowerMgmtTest.BusySet | tests/subsys/pm/power_mgmt/src/main.c:414-423 | no device busy at first; after `busy_set` some device, and that device, is busy |
| PowerMgmtTest.BusyClear | tests/subsys/pm/power_mgmt/src/main.c:425-431 | after `busy_clear` of the only busy device, none is busy |
| PowerMgmtTest.ForceState | tests/subsys/pm/power_mgmt/src/main.c:457-466 | `pm_state_force` returns true and the next transition hands exactly the forced state to `pm_state_set` |
| PowerMgmtTest.RuntimeKeepsDeviceActive | tests/subsys/pm/power_mgmt/src/main.c:366-392 | with the suite's notifier registered for suspend-to-idle, a device opened through runtime get stays active; the notifier is called on entry and on exit, and the entry call and `pm_state_set` see the device active; the put that closes it suspends it again |
| PowerMgmtTest.RuntimeDisableLetsSystemSuspend | tests/subsys/pm/power_mgmt/src/main.c:332-350 | with the suite's notifier registered for suspend-to-idle, after runtime disable the notifier is called on entry, seeing the device suspended, and on exit, seeing it active again; runtime enable then suspends it again |
| PowerMgmtTest.EmptyStates | tests/subsys/pm/power_mgmt/src/main.c:449-455 | a single-CPU system reports no states for CPU 1 |
| PowerMgmtTest.NotifierRegistration | tests/subsys/pm/power_mgmt/src/main.c:336-349 | the suite's notifier registered for suspend-to-idle and unregistered returns 0 both times and leaves the registry as it was |

## Left out

- `subsys/pm/pm.c`, `subsys/pm/device.c`, `subsys/pm/device_runtime.c` and
  `include/zephyr/pm/state.h` are not part of this model. The device and
  runtime semantics follow the documented API and the assertions of the
  test suite. The idle-path sequence follows the hook documentation in
  `pm.h` and the test callbacks.
- The bit values of `PM_STATE_ENTRY` and `PM_STATE_EXIT` are taken as 0x01
  and 0x02, because `state.h` is not part of this model.
- Duplicate registration and unregistering an absent notifier are modelled
  as `-EINVAL`. The header only promises a negative value, and the model's
  contracts promise only that.
- `pm_device_runtime_put_async` is modelled as the synchronous put. Work
  queues and deferred execution are not modelled.
- Interrupt locking (`irq_unlock` in `pm_state_exit_post_ops`), `k_sleep`,
  the idle-thread and scheduler checks of the policy hook, ticks and timeouts
  are not modelled. The policy hook's answer is a parameter of the idle
  path.
- The spin lock around the registry and any concurrency between CPUs are
  not modelled; each operation is atomic.
- The `uint32_t` residency and latency fields are unbounded naturals.
  Nothing in the modelled code does arithmetic on them.
- The devicetree macros (`DT_FOREACH_CHILD`, `LISTIFY`,
  `DT_FOREACH_CHILD_STATUS_OKAY_SEP`) are not modelled. The devicetree is
  given as the sequence of `/cpus` children, each with an `okay` flag for
  its status, and the power-state nodes as a sequence of `StateInfo`.
- Notifier lists are one per power-state node; the model keeps one
  registry keyed by (state, substate), whose dispatch for a key is that
  node's list in registration order.
- The busy flag is advisory and does not exclude a device from the suspend
  pass.
- The state lock is a flag, not a nesting counter.
- A failing suspend callback ends the pass without resuming the devices
  already suspended.
- If a resume callback fails, the exit notifiers still run and the cycle
  reports failure.
- PmStateTable.CpuGetIndex: its faithful if-and-only-if form is stated only
  for tables of at most 128 entries (CpuGetIndexFaithful). Beyond that the
  `int8_t` result wraps and the contract only relates it to the first match
  modulo 256.
- PmStateTable.SmpGetIndex: a non-terminating search is the `Loops` outcome,
  not an infinite computation.
- PmSystem.SuspendDevices: its own contract states only the length and the
  recorded range; the frame, callbacks, order and success properties are
  the lemmas SuspendPassFrame, SuspendPassEvents, SuspendPassMoved and
  SuspendPassOk, kept apart so that each proof stays small.
- PmSystem.ResumeDevices: likewise, its frame, callbacks and success are
  the lemmas ResumePassFrame, ResumePassEvents and ResumePassOk.


=== FILE: device.dfy ===
/** The device side of power management, as the power-management test suite
    exercises it: each device's state, the action callback that moves it
    between states, the advisory busy flag, the state lock, and runtime
    (reference-counted) power management. Devices are held in a sequence
    in initialization order; a device is addressed by its index. */
module PmDevice {
  import opened PmTypes
  import opened PmNotifier

  datatype DeviceState = Active | Suspending | Suspended | Resuming

  datatype Action = Suspend | Resume

  /** The state an action leaves a device in. */
  function Target(a: Action): DeviceState
  {
    match a
    case Suspend => Suspended
    case Resume => DeviceState.Active
  }

  /** The state a device reports while its callback for `a` runs. */
  function Transient(a: Action): DeviceState
  {
    match a
    case Suspend => Suspending
    case Resume => Resuming
  }

  /** One device: `ready` is false when its initialization failed;
      `failsOn` lists the actions its callback reports an error for. */
  datatype Device = Device(
    ready: bool,
    locked: bool,
    busy: bool,
    runtimeEnabled: bool,
    usage: nat,
    state: DeviceState,
    failsOn: set<Action>)

  /** Between operations a device is either active or suspended. */
  predicate Settled(dev: Device)
  {
    dev.state == DeviceState.Active || dev.state == Suspended
  }

  /** What `pm_device_state_get` reports for every device. */
  function View(devs: seq<Device>): (v: seq<DeviceState>)
    ensures |v| == |devs|
    ensures forall j :: 0 <= j < |devs| ==> v[j] == devs[j].state
  {
    seq(|devs|, j requires 0 <= j < |devs| => devs[j].state)
  }

  /** What the model observes of the subsystem: each callback invocation
      with the device states visible to it, and the two hardware hooks. */
  datatype Event =
    | ActionCall(dev: nat, action: Action, view: seq<DeviceState>)
    | NotifierCall(call: Call, view: seq<DeviceState>)
    | StateSet(info: StateInfo, view: seq<DeviceState>)
    | ExitPostOps(info: StateInfo)

  datatype Outcome = Done | NoOp | Failed

  /** The outcome of running an action, the devices after it and the
      callback invocation, if any. */
  datatype Run = Run(outcome: Outcome, devs: seq<Device>, events: seq<Event>)

  /** Running action `a` on device `d`: a device that is not ready, is
      locked, or is already in the target state is left alone and its
      callback is not invoked; otherwise the callback runs while the device
      reports the transient state, and on success the device reaches the
      target state, on failure it keeps its state. */
  function RunAction(devs: seq<Device>, d: nat, a: Action): (r: Run)
    requires d < |devs|
    ensures |r.devs| == |devs|
    ensures forall j :: 0 <= j < |devs| && j != d ==> r.devs[j] == devs[j]
    ensures r.outcome == NoOp <==> !devs[d].ready || devs[d].locked || devs[d].state == Target(a)
    ensures r.outcome == NoOp ==> r.devs == devs && r.events == []
    ensures r.outcome != NoOp ==> r.events == [ActionCall(d, a, View(devs)[d := Transient(a)])]
    ensures r.outcome == Done <==> r.outcome != NoOp && a !in devs[d].failsOn
    ensures r.outcome == Done ==> r.devs[d] == devs[d].(state := Target(a))
    ensures r.outcome == Failed ==> r.devs == devs
  {
    var dev := devs[d];
    if !dev.ready || dev.locked || dev.state == Target(a) then Run(NoOp, devs, [])
    else
      var call := ActionCall(d, a, View(devs)[d := Transient(a)]);
      if a in dev.failsOn then Run(Failed, devs, [call])
      else Run(Done, devs[d := dev.(state := Target(a))], [call])
  }

  // ---------------------------------------------------------------------
  // Busy flag
  // ---------------------------------------------------------------------

  /** `pm_device_busy_set` / `pm_device_busy_clear`: changes only the busy
      flag of device `d`. */
  function BusyUpdate(devs: seq<Device>, d: nat, busy: bool): (r: seq<Device>)
    requires d < |devs|
    ensures |r| == |devs| && r[d].busy == busy
    ensures r[d] == devs[d].(busy := busy)
    ensures forall j :: 0 <= j < |devs| && j != d ==> r[j] == devs[j]
    ensures View(r) == View(devs)
  {
    devs[d := devs[d].(busy := busy)]
  }

  /** `pm_device_is_any_busy`: some device is busy. */
  function AnyBusy(devs: seq<Device>): (b: bool)
    ensures b <==> exists j :: 0 <= j < |devs| && devs[j].busy
    decreases |devs|
  {
    if devs == [] then false
    else
      assert forall j :: 0 <= j < |devs| - 1 ==> devs[..|devs| - 1][j] == devs[j];
      devs[|devs| - 1].busy || AnyBusy(devs[..|devs| - 1])
  }

  // ---------------------------------------------------------------------
  // State lock
  // ---------------------------------------------------------------------

  /** `pm_device_state_lock` / `pm_device_state_unlock`: changes only the
      lock flag of device `d`. */
  function LockUpdate(devs: seq<Device>, d: nat, locked: bool): (r: seq<Device>)
    requires d < |devs|
    ensures |r| == |devs| && r[d] == devs[d].(locked := locked)
    ensures forall j :: 0 <= j < |devs| && j != d ==> r[j] == devs[j]
  {
    devs[d := devs[d].(locked := locked)]
  }

  // ---------------------------------------------------------------------
  // Runtime power management
  // ---------------------------------------------------------------------

  /** The outcome of a runtime call: success, the devices after it, and
      the callback invocations it made. */
  datatype RtResult = RtResult(ok: bool, devs: seq<Device>, events: seq<Event>)

  /** The only callback a runtime call on device `d` invokes is `d`'s, and
      only when `d` is ready. */
  ghost predicate CallsOnlyReady(devs: seq<Device>, d: nat, events: seq<Event>)
    requires d < |devs|
  {
    forall e :: e in events ==> e.ActionCall? && e.dev == d && devs[d].ready
  }

  /** `pm_device_runtime_get`: takes a reference. The first reference
      resumes the device before returning; if that resume fails the
      reference is not taken. Without runtime PM enabled it does nothing. */
  function RuntimeGet(devs: seq<Device>, d: nat): (r: RtResult)
    requires d < |devs|
    ensures |r.devs| == |devs|
    ensures forall j :: 0 <= j < |devs| && j != d ==> r.devs[j] == devs[j]
    ensures r.devs[d] == devs[d].(state := r.devs[d].state, usage := r.devs[d].usage, runtimeEnabled := r.devs[d].runtimeEnabled)
    ensures CallsOnlyReady(devs, d, r.events)
    ensures !devs[d].runtimeEnabled ==> r == RtResult(true, devs, [])
    ensures r.ok && devs[d].runtimeEnabled ==> r.devs[d].usage == devs[d].usage + 1
    ensures r.ok && devs[d].runtimeEnabled && devs[d].usage == 0 && devs[d].ready && !devs[d].locked ==>
      r.devs[d].state == DeviceState.Active
    ensures !r.ok ==> r.devs == devs
    ensures !r.ok <==> (devs[d].runtimeEnabled && devs[d].usage == 0 && devs[d].ready && !devs[d].locked
      && devs[d].state != DeviceState.Active && Resume in devs[d].failsOn)
    ensures r.devs[d].runtimeEnabled == devs[d].runtimeEnabled
    ensures r.devs[d].ready == devs[d].ready && r.devs[d].locked == devs[d].locked
  {
    var dev := devs[d];
    if !dev.runtimeEnabled then RtResult(true, devs, [])
    else if dev.usage > 0 then RtResult(true, devs[d := dev.(usage := dev.usage + 1)], [])
    else
      var run := RunAction(devs, d, Resume);
      if run.outcome == Failed then RtResult(false, devs, run.events)
      else RtResult(true, run.devs[d := run.devs[d].(usage := 1)], run.events)
  }

  /** `pm_device_runtime_put`: drops a reference. Dropping the last one
      suspends the device before returning; if that suspend fails the
      reference is kept. Dropping a reference nobody holds fails. Without
      runtime PM enabled it does nothing. */
  function RuntimePut(devs: seq<Device>, d: nat): (r: RtResult)
    requires d < |devs|
    ensures |r.devs| == |devs|
    ensures forall j :: 0 <= j < |devs| && j != d ==> r.devs[j] == devs[j]
    ensures r.devs[d] == devs[d].(state := r.devs[d].state, usage := r.devs[d].usage, runtimeEnabled := r.devs[d].runtimeEnabled)
    ensures CallsOnlyReady(devs, d, r.events)
    ensures !devs[d].runtimeEnabled ==> r == RtResult(true, devs, [])
    ensures devs[d].runtimeEnabled && devs[d].usage == 0 ==> !r.ok && r.devs == devs
    ensures r.ok && devs[d].runtimeEnabled ==> r.devs[d].usage + 1 == devs[d].usage
    ensures r.ok && devs[d].runtimeEnabled && devs[d].usage == 1 && devs[d].ready && !devs[d].locked ==>
      r.devs[d].state == Suspended
    ensures !r.ok ==> r.devs == devs
    ensures !r.ok <==> (devs[d].runtimeEnabled && (devs[d].usage == 0 ||
      (devs[d].usage == 1 && devs[d].ready && !devs[d].locked && devs[d].state != Suspended && Suspend in devs[d].failsOn)))
    ensures r.devs[d].runtimeEnabled == devs[d].runtimeEnabled
  {
    var dev := devs[d];
    if !dev.runtimeEnabled then RtResult(true, devs, [])
    else if dev.usage == 0 then RtResult(false, devs, [])
    else if dev.usage > 1 then RtResult(true, devs[d := dev.(usage := dev.usage - 1)], [])
    else
      var released := devs[d := dev.(usage := 0)];
      var run := RunAction(released, d, Suspend);
      if run.outcome == Failed then RtResult(false, devs, run.events)
      else RtResult(true, run.devs, run.events)
  }

  /** `pm_device_runtime_enable`: hands the device to runtime PM with no
      reference held, suspending it first if it is active. */
  function RuntimeEnable(devs: seq<Device>, d: nat): (r: RtResult)
    requires d < |devs|
    ensures |r.devs| == |devs|
    ensures forall j :: 0 <= j < |devs| && j != d ==> r.devs[j] == devs[j]
    ensures r.devs[d] == devs[d].(state := r.devs[d].state, usage := r.devs[d].usage, runtimeEnabled := r.devs[d].runtimeEnabled)
    ensures CallsOnlyReady(devs, d, r.events)
    ensures devs[d].runtimeEnabled ==> r == RtResult(true, devs, [])
    ensures r.ok ==> r.devs[d].runtimeEnabled
    ensures r.ok && !devs[d].runtimeEnabled ==> r.devs[d].usage == 0
    ensures r.ok && !devs[d].runtimeEnabled && devs[d].ready && !devs[d].locked && Settled(devs[d]) ==>
      r.devs[d].state == Suspended
    ensures !r.ok ==> r.devs == devs
    ensures !r.ok <==> (!devs[d].runtimeEnabled && devs[d].state == DeviceState.Active && devs[d].ready
      && !devs[d].locked && Suspend in devs[d].failsOn)
  {
    var dev := devs[d];
    if dev.runtimeEnabled then RtResult(true, devs, [])
    else if dev.state == DeviceState.Active then
      var run := RunAction(devs, d, Suspend);
      if run.outcome == Failed then RtResult(false, devs, run.events)
      else RtResult(true, run.devs[d := run.devs[d].(runtimeEnabled := true, usage := 0)], run.events)
    else RtResult(true, devs[d := dev.(runtimeEnabled := true, usage := 0)], [])
  }

  /** `pm_device_runtime_disable`: takes the device back from runtime PM,
      resuming it first if it is suspended, so that from then on it is
      handled like any device without runtime PM. */
  function RuntimeDisable(devs: seq<Device>, d: nat): (r: RtResult)
    requires d < |devs|
    ensures |r.devs| == |devs|
    ensures forall j :: 0 <= j < |devs| && j != d ==> r.devs[j] == devs[j]
    ensures r.devs[d] == devs[d].(state := r.devs[d].state, runtimeEnabled := r.devs[d].runtimeEnabled)
    ensures r.devs[d].usage == devs[d].usage
    ensures CallsOnlyReady(devs, d, r.events)
    ensures !devs[d].runtimeEnabled ==> r == RtResult(true, devs, [])
    ensures r.ok ==> !r.devs[d].runtimeEnabled
    ensures r.ok && devs[d].runtimeEnabled && devs[d].ready && !devs[d].locked && Settled(devs[d]) ==>
      r.devs[d].state == DeviceState.Active
    ensures r.devs[d].ready == devs[d].ready && r.devs[d].locked == devs[d].locked
    ensures r.devs[d].failsOn == devs[d].failsOn && r.devs[d].busy == devs[d].busy
    ensures !r.ok ==> r.devs == devs
    ensures !r.ok <==> (devs[d].runtimeEnabled && devs[d].state == Suspended && devs[d].ready
      && !devs[d].locked && Resume in devs[d].failsOn)
  {
    var dev := devs[d];
    if !dev.runtimeEnabled then RtResult(true, devs, [])
    else if dev.state == Suspended then
      var run := RunAction(devs, d, Resume);
      if run.outcome == Failed then RtResult(false, devs, run.events)
      else RtResult(true, run.devs[d := run.devs[d].(runtimeEnabled := false)], run.events)
    else RtResult(true, devs[d := dev.(runtimeEnabled := false)], [])
  }

  /** Enabling runtime PM on an idle active device suspends it; disabling
      it again resumes the device and gives back exactly the device it
      started from. */
  lemma RuntimeEnableDisableRoundTrip(devs: seq<Device>, d: nat)
    requires d < |devs|
    requires devs[d].ready && !devs[d].locked && !devs[d].runtimeEnabled
    requires devs[d].state == DeviceState.Active && devs[d].usage == 0
    requires Suspend !in devs[d].failsOn && Resume !in devs[d].failsOn
    ensures var e := RuntimeEnable(devs, d);
      var x := RuntimeDisable(e.devs, d);
      && e.ok && e.devs[d].state == Suspended
      && e.events == [ActionCall(d, Suspend, View(devs)[d := Suspending])]
      && x.ok && x.devs == devs
      && x.events == [ActionCall(d, Resume, View(devs)[d := Resuming])]
  {
    var e := RuntimeEnable(devs, d);
    var run := RunAction(devs, d, Suspend);
    assert e.devs == run.devs[d := run.devs[d].(runtimeEnabled := true, usage := 0)];
    var back := RunAction(e.devs, d, Resume);
    assert back.devs[d].(runtimeEnabled := false) == devs[d];
    assert back.devs[d := back.devs[d].(runtimeEnabled := false)] == devs;
    assert View(e.devs)[d := Resuming] == View(devs)[d := Resuming];
  }

  /** Runtime references keep a device up: while references are held, the
      device stays active across further gets and puts that do not drop the
      last one. */
  lemma {:induction false} RuntimeGetPutBalanced(devs: seq<Device>, d: nat)
    requires d < |devs|
    requires devs[d].runtimeEnabled && devs[d].usage > 0
    ensures var g := RuntimeGet(devs, d);
      && g.ok && g.events == []
      && RuntimePut(g.devs, d) == RtResult(true, devs, [])
  {
    var g := RuntimeGet(devs, d);
    assert g.devs == devs[d := devs[d].(usage := devs[d].usage + 1)];
    assert g.devs[d].usage > 1;
    assert RuntimePut(g.devs, d).devs == g.devs[d := g.devs[d].(usage := devs[d].usage)];
  }
}

=== FILE: notifier.dfy ===
/** The power-management notifiers of `include/zephyr/pm/pm.h`: a registry
    of notifiers, each registered for one (state, substate) with a
    direction bitmask, and the rule saying which of them are called on a
    transition. With power management compiled out, the registry calls are
    stubs that answer `-ENOSYS`. */
module PmNotifier {
  import opened PmTypes

  /** Direction bits of a notifier: power-state entry and exit. */
  const STATE_ENTRY: uint8 := 0x01
  const STATE_EXIT: uint8 := 0x02

  /** The bitmask `mask` selects direction `dir`. */
  predicate HasDirection(mask: uint8, dir: uint8)
  {
    (mask as bv8) & (dir as bv8) != 0
  }

  /** `struct pm_notifier`: `id` stands for the object's address, `ctx` for
      its context pointer; the callback itself is observed through the
      calls it receives. */
  datatype Notifier = Notifier(id: nat, direction: uint8, ctx: nat)

  /** The (state, substate) a notifier is registered for. */
  datatype Key = Key(state: PmState, substateId: uint8)

  function KeyOf(info: StateInfo): Key
  {
    Key(info.state, info.substateId)
  }

  datatype Registration = Registration(notifier: Notifier, key: Key)

  /** One callback invocation: the notifier, the direction it is told
      triggered it, and its context. */
  datatype Call = Call(id: nat, direction: uint8, ctx: nat)

  /** The registry in registration order. */
  type Registry = seq<Registration>

  /** A notifier object embeds a single list node, so it is linked at most
      once. */
  ghost predicate Unique(reg: Registry)
  {
    forall i, j :: 0 <= i < j < |reg| ==> reg[i].notifier.id != reg[j].notifier.id
  }

  predicate IsRegistered(reg: Registry, id: nat)
  {
    exists i | 0 <= i < |reg| :: reg[i].notifier.id == id
  }

  /** The notifier object `id` is linked in the list of `key`. */
  predicate RegisteredFor(reg: Registry, id: nat, key: Key)
  {
    exists i | 0 <= i < |reg| :: reg[i].notifier.id == id && reg[i].key == key
  }

  /** A notifier list exists for `key`: some `zephyr,power-state` node of
      the devicetree, listed in `states`, has that (state, substate). */
  predicate Configured(states: seq<StateInfo>, key: Key)
  {
    exists i | 0 <= i < |states| :: KeyOf(states[i]) == key
  }

  /** The return code of a registry call and the registry after it. */
  datatype Ret = Ret(code: int, reg: Registry)

  /** `pm_notifier_register`: appends the notifier to the list of the
      power-state node with that (state, substate) and answers 0. A pair
      no node has, or a notifier already linked, is refused with a
      negative code. Without power management, `-ENOSYS` and no change.
      `states` lists the devicetree's power-state nodes. */
  function Register(pmEnabled: bool, states: seq<StateInfo>, reg: Registry, n: Notifier, state: PmState, substateId: uint8): (r: Ret)
    ensures !pmEnabled ==> r == Ret(-ENOSYS, reg)
    ensures pmEnabled ==> (r.code == 0 <==> Configured(states, Key(state, substateId)) && !IsRegistered(reg, n.id))
    ensures r.code == 0 ==> r.reg == reg + [Registration(n, Key(state, substateId))]
    ensures r.code != 0 ==> r.code < 0 && r.reg == reg
    ensures Unique(reg) ==> Unique(r.reg)
    ensures (forall x :: x in reg ==> Configured(states, x.key)) ==> forall x :: x in r.reg ==> Configured(states, x.key)
  {
    if !pmEnabled then Ret(-ENOSYS, reg)
    else if !Configured(states, Key(state, substateId)) then Ret(-EINVAL, reg)
    else if IsRegistered(reg, n.id) then Ret(-EINVAL, reg)
    else Ret(0, reg + [Registration(n, Key(state, substateId))])
  }

  /** The registry without the notifier `id`, other entries kept in order. */
  function Without(reg: Registry, id: nat): (r: Registry)
    ensures forall x :: x in r <==> x in reg && x.notifier.id != id
    ensures !IsRegistered(r, id)
    decreases |reg|
  {
    if reg == [] then []
    else
      var rest := Without(reg[..|reg| - 1], id);
      var last := reg[|reg| - 1];
      assert forall x :: x in reg <==> x in reg[..|reg| - 1] || x == last;
      if last.notifier.id == id then rest else rest + [last]
  }

  /** `pm_notifier_unregister`: unlinks the notifier object registered
      for (state, substate), found by its identity, and answers 0; a
      negative code when it is not linked there. Without power management,
      `-ENOSYS` and no change. */
  function Unregister(pmEnabled: bool, reg: Registry, n: Notifier, state: PmState, substateId: uint8): (r: Ret)
    ensures !pmEnabled ==> r == Ret(-ENOSYS, reg)
    ensures pmEnabled ==> (r.code == 0 <==> RegisteredFor(reg, n.id, Key(state, substateId)))
    ensures r.code == 0 ==> !IsRegistered(r.reg, n.id)
    ensures r.code == 0 ==> forall x :: x in r.reg <==> x in reg && x.notifier.id != n.id
    ensures r.code != 0 ==> r.code < 0 && r.reg == reg
    ensures Unique(reg) ==> Unique(r.reg)
  {
    if !pmEnabled then Ret(-ENOSYS, reg)
    else if RegisteredFor(reg, n.id, Key(state, substateId)) then
      WithoutKeepsUnique(reg, n.id);
      Ret(0, Without(reg, n.id))
    else Ret(-EINVAL, reg)
  }

  /** The call a registration receives when it fires in direction `dir`. */
  function CallOf(x: Registration, dir: uint8): Call
  {
    Call(x.notifier.id, dir, x.notifier.ctx)
  }

  /** The registration is for `key` and its bitmask selects `dir`. */
  predicate Selects(x: Registration, dir: uint8, key: Key)
  {
    x.key == key && HasDirection(x.notifier.direction, dir)
  }

  /** The callbacks invoked, in registration order, when the target enters
      (`dir == STATE_ENTRY`) or leaves (`dir == STATE_EXIT`) the state
      `key`: exactly the notifiers registered for `key` whose bitmask
      selects `dir`, each told `dir`. */
  function Dispatch(reg: Registry, dir: uint8, key: Key): (calls: seq<Call>)
    ensures forall c :: c in calls ==> c.direction == dir
    ensures forall c :: c in calls <==>
      exists i :: 0 <= i < |reg| && Selects(reg[i], dir, key) && c == CallOf(reg[i], dir)
    ensures |calls| <= |reg|
    decreases |reg|
  {
    if reg == [] then []
    else
      var init := reg[..|reg| - 1];
      var last := reg[|reg| - 1];
      var rest := Dispatch(init, dir, key);
      assert forall i :: 0 <= i < |init| ==> init[i] == reg[i];
      if Selects(last, dir, key) then rest + [CallOf(last, dir)] else rest
  }

  /** Dispatch keeps registration order: the calls for a registry extended
      by later registrations are the earlier calls followed by the later
      ones. */
  lemma {:induction false} DispatchPreservesOrder(reg1: Registry, reg2: Registry, dir: uint8, key: Key)
    ensures Dispatch(reg1 + reg2, dir, key) == Dispatch(reg1, dir, key) + Dispatch(reg2, dir, key)
    decreases |reg2|
  {
    if reg2 == [] {
      assert reg1 + reg2 == reg1;
    } else {
      var init2 := reg2[..|reg2| - 1];
      assert (reg1 + reg2)[..|reg1 + reg2| - 1] == reg1 + init2;
      DispatchPreservesOrder(reg1, init2, dir, key);
    }
  }

  /** A successfully registered notifier is called last, after every
      earlier registration, on each direction its bitmask selects. */
  lemma RegisterThenDispatch(states: seq<StateInfo>, reg: Registry, n: Notifier, state: PmState, substateId: uint8, dir: uint8)
    requires Register(true, states, reg, n, state, substateId).code == 0
    requires HasDirection(n.direction, dir)
    ensures Dispatch(Register(true, states, reg, n, state, substateId).reg, dir, Key(state, substateId))
         == Dispatch(reg, dir, Key(state, substateId)) + [Call(n.id, dir, n.ctx)]
  {
    var x := Registration(n, Key(state, substateId));
    DispatchPreservesOrder(reg, [x], dir, Key(state, substateId));
    assert [x][..0] == [];
  }

  /** After a successful unregistration the notifier is never called
      again, in either direction, for any state. */
  lemma UnregisterSilences(reg: Registry, n: Notifier, state: PmState, substateId: uint8, dir: uint8, key: Key)
    requires Unregister(true, reg, n, state, substateId).code == 0
    ensures forall c :: c in Dispatch(Unregister(true, reg, n, state, substateId).reg, dir, key) ==> c.id != n.id
  {
    var reg' := Unregister(true, reg, n, state, substateId).reg;
    forall c | c in Dispatch(reg', dir, key)
      ensures c.id != n.id
    {
      var i :| 0 <= i < |reg'| && Selects(reg'[i], dir, key) && c == CallOf(reg'[i], dir);
      assert reg'[i] in reg';
    }
  }

  /** The notifier calls of one transition `from -> to`: entry callbacks of
      the notifiers registered for `to` when leaving `Active`, exit
      callbacks of those registered for `from` when returning to `Active`,
      and none otherwise. */
  function TransitionCalls(reg: Registry, from: StateInfo, to: StateInfo): (calls: seq<Call>)
    ensures forall c :: c in calls ==>
      (c.direction == STATE_ENTRY && from.state == Active && to.state != Active) ||
      (c.direction == STATE_EXIT && from.state != Active && to.state == Active)
    ensures from.state == to.state ==> calls == []
  {
    if from.state == Active && to.state != Active then Dispatch(reg, STATE_ENTRY, KeyOf(to))
    else if from.state != Active && to.state == Active then Dispatch(reg, STATE_EXIT, KeyOf(from))
    else []
  }

  /** Every notifier registered for the target state with the entry bit set
      is called on the way out of `Active`, and every one registered for
      the left state with the exit bit set is called on the way back. */
  lemma TransitionCallsComplete(reg: Registry, from: StateInfo, to: StateInfo, i: nat)
    requires i < |reg|
    ensures from.state == Active && to.state != Active && Selects(reg[i], STATE_ENTRY, KeyOf(to)) ==>
      CallOf(reg[i], STATE_ENTRY) in TransitionCalls(reg, from, to)
    ensures from.state != Active && to.state == Active && Selects(reg[i], STATE_EXIT, KeyOf(from)) ==>
      CallOf(reg[i], STATE_EXIT) in TransitionCalls(reg, from, to)
  {
  }

  /** Removing a notifier that is not linked changes nothing. */
  lemma {:induction false} WithoutAbsent(reg: Registry, id: nat)
    requires !IsRegistered(reg, id)
    ensures Without(reg, id) == reg
    decreases |reg|
  {
    if reg != [] {
      var init := reg[..|reg| - 1];
      assert !IsRegistered(init, id) by {
        forall i | 0 <= i < |init| ensures init[i].notifier.id != id {
          assert init[i] == reg[i];
        }
      }
      WithoutAbsent(init, id);
      assert reg[|reg| - 1].notifier.id != id;
      assert init + [reg[|reg| - 1]] == reg;
    }
  }

  /** Removal keeps a registry free of duplicate notifiers. */
  lemma {:induction false} WithoutKeepsUnique(reg: Registry, id: nat)
    ensures Unique(reg) ==> Unique(Without(reg, id))
    decreases |reg|
  {
    if reg != [] && Unique(reg) {
      var init := reg[..|reg| - 1];
      var last := reg[|reg| - 1];
      var rest := Without(init, id);
      assert Unique(init) by {
        forall i, j | 0 <= i < j < |init| ensures init[i].notifier.id != init[j].notifier.id {
          assert init[i] == reg[i] && init[j] == reg[j];
        }
      }
      WithoutKeepsUnique(init, id);
      if last.notifier.id != id {
        forall i | 0 <= i < |rest| ensures rest[i].notifier.id != last.notifier.id {
          assert rest[i] in init;
          var k :| 0 <= k < |init| && init[k] == rest[i];
          assert reg[k] == rest[i];
        }
        var r := rest + [last];
        forall i, j | 0 <= i < j < |r| ensures r[i].notifier.id != r[j].notifier.id {
          if j < |rest| {
            assert r[i] == rest[i] && r[j] == rest[j];
          } else {
            assert r[i] == rest[i] && r[j] == last;
          }
        }
      }
    }
  }

  /** Removal keeps registration order: removing a notifier from a registry
      made of two parts removes it from each part, the parts staying in
      order. */
  lemma {:induction false} WithoutPreservesOrder(reg1: Registry, reg2: Registry, id: nat)
    ensures Without(reg1 + reg2, id) == Without(reg1, id) + Without(reg2, id)
    decreases |reg2|
  {
    if reg2 == [] {
      assert reg1 + reg2 == reg1;
    } else {
      var init2 := reg2[..|reg2| - 1];
      assert (reg1 + reg2)[..|reg1 + reg2| - 1] == reg1 + init2;
      WithoutPreservesOrder(reg1, init2, id);
    }
  }

  /** Registering a notifier for a configured state and unregistering it
      again gives back the registry it started from; unregistering it a second time is refused
      with a negative code. */
  lemma RegisterUnregisterRoundTrip(states: seq<StateInfo>, reg: Registry, n: Notifier, state: PmState, substateId: uint8)
    requires Configured(states, Key(state, substateId)) && !IsRegistered(reg, n.id)
    ensures var r1 := Register(true, states, reg, n, state, substateId);
      var r2 := Unregister(true, r1.reg, n, state, substateId);
      && r1.code == 0 && r2.code == 0 && r2.reg == reg
      && Unregister(true, r2.reg, n, state, substateId).code < 0
  {
    var x := Registration(n, Key(state, substateId));
    var r1 := Register(true, states, reg, n, state, substateId);
    assert x in r1.reg;
    assert Without(reg + [x], n.id) == Without(reg, n.id) by {
      assert (reg + [x])[..|reg + [x]| - 1] == reg;
    }
    WithoutAbsent(reg, n.id);
  }
}

=== FILE: policy.dfy ===
/** The system power-state decision of `include/zephyr/pm/pm.h`: the
    one-shot forced state set by `pm_state_force`, consumed by the next
    entry of the idle thread on that CPU, and `pm_state_next_get`, which
    reports the state chosen for the transition under way. */
module PmPolicy {
  import opened PmTypes

  /** Per-CPU slots: the pending forced state, if any, and the state chosen
      at the last idle entry. */
  datatype PolicyState = PolicyState(forced: seq<Option<StateInfo>>, next: seq<StateInfo>)

  predicate HasCpu(p: PolicyState, cpu: uint8)
  {
    cpu < |p.forced| && cpu < |p.next|
  }

  /** `pm_state_force`: stores `info` as CPU `cpu`'s pending forced state
      and reports success; it does not start a transition itself. */
  function Force(p: PolicyState, cpu: uint8, info: StateInfo): (r: (bool, PolicyState))
    requires HasCpu(p, cpu)
    ensures r.0
    ensures |r.1.forced| == |p.forced| && r.1.forced[cpu] == Some(info)
    ensures forall c :: 0 <= c < |p.forced| && c != cpu ==> r.1.forced[c] == p.forced[c]
    ensures r.1.next == p.next
  {
    (true, p.(forced := p.forced[cpu := Some(info)]))
  }

  /** The outcome of one idle entry's decision. */
  datatype Decision = Decision(info: StateInfo, policy: PolicyState)

  /** The decision taken when the idle thread of CPU `cpu` is entered,
      given the state the policy hook would choose: a pending forced state
      wins and is consumed; the chosen state becomes the CPU's next state. */
  function Decide(p: PolicyState, cpu: uint8, choice: StateInfo): (d: Decision)
    requires HasCpu(p, cpu)
    ensures p.forced[cpu].Some? ==> d.info == p.forced[cpu].value
    ensures p.forced[cpu].None? ==> d.info == choice
    ensures HasCpu(d.policy, cpu)
    ensures d.policy.forced[cpu].None? && d.policy.next[cpu] == d.info
    ensures |d.policy.forced| == |p.forced| && |d.policy.next| == |p.next|
    ensures forall c :: 0 <= c < |p.forced| && c != cpu ==> d.policy.forced[c] == p.forced[c]
    ensures forall c :: 0 <= c < |p.next| && c != cpu ==> d.policy.next[c] == p.next[c]
  {
    match p.forced[cpu]
    case Some(f) => Decision(f, PolicyState(p.forced[cpu := None], p.next[cpu := f]))
    case None => Decision(choice, PolicyState(p.forced, p.next[cpu := choice]))
  }

  /** A forced state is used by exactly the next idle entry of its CPU,
      whatever the policy would have chosen; the entry after that is back
      to the policy's choice. */
  lemma ForceIsOneShot(p: PolicyState, cpu: uint8, info: StateInfo, choice1: StateInfo, choice2: StateInfo)
    requires HasCpu(p, cpu)
    ensures var d1 := Decide(Force(p, cpu, info).1, cpu, choice1);
      && d1.info == info
      && Decide(d1.policy, cpu, choice2).info == choice2
  {
  }

  /** Forcing a state on one CPU leaves the next decision of every other CPU
      alone. */
  lemma ForceIsPerCpu(p: PolicyState, cpu: uint8, other: uint8, info: StateInfo, choice: StateInfo)
    requires HasCpu(p, cpu) && HasCpu(p, other) && cpu != other
    ensures Decide(Force(p, cpu, info).1, other, choice).info == Decide(p, other, choice).info
  {
  }

  /** `pm_state_next_get`: the state chosen for CPU `cpu`; with power
      management compiled out, no state (a null pointer). */
  function NextGet(pmEnabled: bool, p: PolicyState, cpu: uint8): (r: Option<StateInfo>)
    requires pmEnabled ==> HasCpu(p, cpu)
    ensures !pmEnabled ==> r.None?
    ensures pmEnabled ==> r.Some? && r.value == p.next[cpu]
  {
    if pmEnabled then Some(p.next[cpu]) else None
  }

  /** While a transition is under way, `pm_state_next_get` reports the state
      just decided. */
  lemma NextGetReportsDecision(p: PolicyState, cpu: uint8, choice: StateInfo)
    requires HasCpu(p, cpu)
    ensures NextGet(true, Decide(p, cpu, choice).policy, cpu) == Some(Decide(p, cpu, choice).info)
  {
  }
}

=== FILE: power_mgmt_test.dfy ===
/** The scenarios of the power-management test suite
    (`tests/subsys/pm/power_mgmt/src/main.c`), each stated as a lemma about
    the model: the assertions the suite's callbacks and test bodies make
    become postconditions. */
module PowerMgmtTest {
  import opened PmTypes
  import opened PmStateTable
  import opened PmNotifier
  import opened PmPolicy
  import opened PmDevice
  import opened PmSystem

  /** The state the suite forces. */
  const StandbyInfo: StateInfo := StateInfo(Standby, 0, 0, 0)

  /** The suite's devices A, B and C: initialized in that order, active,
      ready, unlocked, not under runtime PM, and their callbacks succeed. */
  ghost predicate ThreeDevices(devs: seq<Device>)
  {
    |devs| == 3 && forall j :: 0 <= j < 3 ==>
      Eligible(devs[j]) && devs[j].state == DeviceState.Active && devs[j].failsOn == {}
  }

  /** B's suspend callback finds C already suspended and A still active. */
  lemma DeviceOrderSuspend(devs: seq<Device>)
    requires ThreeDevices(devs)
    ensures ActionCall(1, Suspend, [DeviceState.Active, Suspending, Suspended]) in SuspendDevices(devs, 3).events
  {
    var sp := SuspendDevices(devs, 3);
    SuspendPassViews(devs, 3);
    assert WillSuspend(devs[1]);
    assert 1 in sp.moved;
    var v := SuspendView(devs, 3, 1);
    assert WillSuspend(devs[2]);
    assert v[0] == DeviceState.Active && v[1] == Suspending && v[2] == Suspended;
    assert v == [DeviceState.Active, Suspending, Suspended];
  }

  /** After the suspend pass over A, B and C, all three are suspended and
      listed for resumption. */
  lemma DeviceOrderSuspended(devs: seq<Device>)
    requires ThreeDevices(devs)
    ensures var sp := SuspendDevices(devs, 3);
      && sp.ok && |sp.devs| == 3 && Descending(sp.moved)
      && (forall x :: x in sp.moved ==> x < 3)
      && (forall j :: 0 <= j < 3 ==> j in sp.moved && Resumable(sp.devs[j]) && sp.devs[j].state == Suspended)
      && ResumeSucceeds(sp.devs, sp.moved)
  {
    var sp := SuspendDevices(devs, 3);
    assert WillSuspend(devs[0]) && WillSuspend(devs[1]) && WillSuspend(devs[2]);
    assert SuspendSucceeds(devs, 3);
    SuspendPass(devs, 3);
    forall x | x in sp.moved ensures sp.devs[x].failsOn == {} {
      assert sp.devs[x] == devs[x].(state := Suspended);
    }
  }

  /** B's resume callback finds A already active and C still suspended. */
  lemma DeviceOrderResume(devs: seq<Device>)
    requires ThreeDevices(devs)
    ensures var sp := SuspendDevices(devs, 3);
      ActionCall(1, Resume, [DeviceState.Active, Resuming, Suspended]) in ResumeDevices(sp.devs, sp.moved).events
  {
    var sp := SuspendDevices(devs, 3);
    DeviceOrderSuspended(devs);
    ResumePassOk(sp.devs, sp.moved);
    ResumePassComplete(sp.devs, sp.moved);
    assert 0 in sp.moved && Resumable(sp.devs[0]) && sp.devs[2].state == Suspended;
    var v := ResumeView(sp.devs, sp.moved, 1);
    assert v[0] == DeviceState.Active && v[1] == Resuming && v[2] == Suspended;
    assert v == [DeviceState.Active, Resuming, Suspended];
  }

  /** Devices A, B and C and the system going idle: B's callbacks see the
      states above, the suspend callbacks run from C down to A and the
      resume callbacks from A up to C, and afterwards every device is as
      before. */
  lemma DeviceOrder(sys: System, choice: StateInfo)
    requires ThreeDevices(sys.devs) && HasCpu(sys.policy, 0)
    requires Decide(sys.policy, 0, choice).info.state != PmState.Active
    ensures var c := IdleCycle(sys, 0, choice);
      && ActionCall(1, Suspend, [DeviceState.Active, Suspending, Suspended]) in c.events
      && ActionCall(1, Resume, [DeviceState.Active, Resuming, Suspended]) in c.events
      && PassOrder(c.events)
      && c.ok && c.sys.devs == sys.devs
  {
    assert forall j :: 0 <= j < 3 ==> WillSuspend(sys.devs[j]);
    assert Proceeds(sys, 0, choice);
    IdleCycleParts(sys, 0, choice);
    IdleCycleDeviceOrder(sys, 0, choice);
    IdleCycleRestores(sys, 0, choice);
    DeviceOrderSuspend(sys.devs);
    DeviceOrderResume(sys.devs);
  }

  /** Devices A, B and C with B's suspend callback failing: C, suspended
      first, stays suspended, B and A are left as they were, the only
      callbacks are C's and then B's (A's never runs), and the transition
      reports failure without reaching `pm_state_set`. */
  lemma SuspendFailureKeepsPartialState(sys: System, cpu: uint8, choice: StateInfo)
    requires HasCpu(sys.policy, cpu) && Decide(sys.policy, cpu, choice).info.state != PmState.Active
    requires |sys.devs| == 3
    requires forall j :: 0 <= j < 3 ==> Eligible(sys.devs[j]) && sys.devs[j].state == DeviceState.Active
    requires Suspend in sys.devs[1].failsOn && Suspend !in sys.devs[2].failsOn
    ensures var c := IdleCycle(sys, cpu, choice);
      && !c.ok
      && c.sys.devs == [sys.devs[0], sys.devs[1], sys.devs[2].(state := Suspended)]
      && c.events == [ActionCall(2, Suspend, [DeviceState.Active, DeviceState.Active, Suspending]),
                      ActionCall(1, Suspend, [DeviceState.Active, Suspending, Suspended])]
  {
    var devs := sys.devs;
    var run := RunAction(devs, 2, Suspend);
    assert WillSuspend(devs[2]) && WillSuspend(devs[1]);
    assert RunAction(run.devs, 1, Suspend).outcome == Failed;
    assert SuspendDevices(run.devs, 2) == Pass(false, run.devs, [], RunAction(run.devs, 1, Suspend).events);
    assert SuspendDevices(devs, 3).devs == run.devs;
    assert !SuspendSucceeds(devs, 3);
    IdleCycleFrame(sys, cpu, choice);
    var c := IdleCycle(sys, cpu, choice);
    assert c.sys.devs == run.devs;
    assert run.devs == [devs[0], devs[1], devs[2].(state := Suspended)];
    assert c.events == run.events + RunAction(run.devs, 1, Suspend).events;
    assert View(devs)[2 := Suspending] == [DeviceState.Active, DeviceState.Active, Suspending];
    assert View(run.devs)[1 := Suspending] == [DeviceState.Active, Suspending, Suspended];
  }

  /** The policy hook answering `Active`: the idle path runs no callback,
      touches no device, and `pm_state_next_get` reports `Active`. */
  lemma PowerIdle(sys: System, cpu: uint8, choice: StateInfo)
    requires HasCpu(sys.policy, cpu) && sys.policy.forced[cpu].None? && choice.state == PmState.Active
    ensures var c := IdleCycle(sys, cpu, choice);
      && c.events == [] && c.sys.devs == sys.devs
      && NextGet(true, c.sys.policy, cpu) == Some(choice)
  {
  }

  /** A device whose initialization failed never has its callback run and
      keeps its state, however many times the system goes idle. */
  lemma NotReadyUntouched(sys: System, cpu: uint8, choices: seq<StateInfo>, d: nat)
    requires HasCpu(sys.policy, cpu) && d < |sys.devs| && !sys.devs[d].ready
    ensures var r := IdleCycles(sys, cpu, choices);
      && d < |r.0.devs| && r.0.devs[d] == sys.devs[d]
      && forall e :: e in r.1 && e.ActionCall? ==> e.dev != d
  {
    ExcludedDeviceUntouched(sys, cpu, choices, d);
  }

  /** Device A locked while active: `pm_state_set` sees it active, its
      callback is never run, it keeps its state, and unlocking it clears
      only the lock. */
  lemma DeviceStateLock(sys: System, cpu: uint8, choice: StateInfo, a: nat)
    requires HasCpu(sys.policy, cpu) && Proceeds(sys, cpu, choice)
    requires a < |sys.devs| && sys.devs[a].locked && sys.devs[a].state == DeviceState.Active
    ensures var c := IdleCycle(sys, cpu, choice);
      && (forall e :: e in c.events && e.StateSet? ==> a < |e.view| && e.view[a] == DeviceState.Active)
      && (forall e :: e in c.events && e.ActionCall? ==> e.dev != a)
      && c.sys.devs[a] == sys.devs[a]
      && LockUpdate(c.sys.devs, a, false)[a] == sys.devs[a].(locked := false)
  {
    IdleCycleEntry(sys, cpu, choice);
    IdleCycleCalls(sys, cpu, choice);
    IdleCycleFrame(sys, cpu, choice);
    assert SuspendedView(sys.devs)[a] == DeviceState.Active;
  }

  /** With no device busy, none is reported busy; marking one busy makes
      it, and so some device, busy. */
  lemma BusySet(devs: seq<Device>, d: nat)
    requires d < |devs| && forall j :: 0 <= j < |devs| ==> !devs[j].busy
    ensures !AnyBusy(devs)
    ensures AnyBusy(BusyUpdate(devs, d, true)) && BusyUpdate(devs, d, true)[d].busy
  {
  }

  /** Clearing the only busy device leaves no device busy. */
  lemma BusyClear(devs: seq<Device>, d: nat)
    requires d < |devs| && forall j :: 0 <= j < |devs| && j != d ==> !devs[j].busy
    ensures !AnyBusy(BusyUpdate(devs, d, false)) && !BusyUpdate(devs, d, false)[d].busy
  {
    var cleared := BusyUpdate(devs, d, false);
    assert forall j :: 0 <= j < |cleared| ==> !cleared[j].busy;
  }

  /** `pm_state_force` succeeds, and the next idle entry hands the forced
      state to `pm_state_set`, whatever the policy hook would have chosen;
      the forced state is then used up. */
  lemma ForceState(sys: System, choice: StateInfo)
    requires HasCpu(sys.policy, 0) && SuspendSucceeds(sys.devs, |sys.devs|)
    ensures var f := Force(sys.policy, 0, StandbyInfo);
      var c := IdleCycle(sys.(policy := f.1), 0, choice);
      && f.0
      && StateSet(StandbyInfo, SuspendedView(sys.devs)) in c.events
      && (forall e :: e in c.events && e.StateSet? ==> e.info.state == Standby)
      && c.sys.policy.forced[0].None?
  {
    var forced := sys.(policy := Force(sys.policy, 0, StandbyInfo).1);
    assert Decide(forced.policy, 0, choice).info == StandbyInfo;
    assert Proceeds(forced, 0, choice);
    IdleCycleParts(forced, 0, choice);
    IdleCycleCalls(forced, 0, choice);
  }

  /** The suite's notifier: registered for suspend-to-idle, substate 0,
      and called in both directions. */
  predicate SuiteNotifier(sys: System, n: Notifier)
  {
    && Registration(n, Key(SuspendToIdle, 0)) in sys.notifiers
    && HasDirection(n.direction, STATE_ENTRY) && HasDirection(n.direction, STATE_EXIT)
  }

  /** The suite's policy hook answers suspend-to-idle, substate 0. */
  predicate DecidesSuspendToIdle(sys: System, cpu: uint8, choice: StateInfo)
    requires HasCpu(sys.policy, cpu)
  {
    KeyOf(Decide(sys.policy, cpu, choice).info) == Key(SuspendToIdle, 0)
  }

  /** The suite's notifier selects both directions of its own state. */
  lemma SuiteNotifierSelected(sys: System, n: Notifier, key: Key)
    requires SuiteNotifier(sys, n) && key == Key(SuspendToIdle, 0)
    ensures exists i :: (0 <= i < |sys.notifiers| && sys.notifiers[i] == Registration(n, key) &&
                         Selects(sys.notifiers[i], STATE_ENTRY, key) && Selects(sys.notifiers[i], STATE_EXIT, key))
  {
    var i :| 0 <= i < |sys.notifiers| && sys.notifiers[i] == Registration(n, key);
  }

  /** A device under runtime PM, all callbacks succeeding. */
  ghost predicate RuntimeDevice(sys: System, d: nat)
  {
    && d < |sys.devs|
    && sys.devs[d].ready && !sys.devs[d].locked && sys.devs[d].runtimeEnabled
    && sys.devs[d].usage == 0 && sys.devs[d].state == Suspended
    && forall j :: 0 <= j < |sys.devs| ==> sys.devs[j].failsOn == {}
  }

  /** A device held through runtime PM before the system goes idle: it
      is active once the reference is taken, the entry notifiers and
      `pm_state_set` see it still active, the exit notifiers see it active,
      both notifiers find `pm_state_next_get` reporting the decided state,
      and dropping the reference afterwards suspends it. */
  lemma RuntimeKeepsDeviceActive(sys: System, cpu: uint8, choice: StateInfo, d: nat, n: Notifier)
    requires HasCpu(sys.policy, cpu) && RuntimeDevice(sys, d)
    requires SuiteNotifier(sys, n) && DecidesSuspendToIdle(sys, cpu, choice)
    ensures var g := RuntimeGet(sys.devs, d);
      var c := IdleCycle(sys.(devs := g.devs), cpu, choice);
      && g.ok && g.devs[d].state == DeviceState.Active
      && NotifierCall(Call(n.id, STATE_ENTRY, n.ctx), SuspendedView(g.devs)) in c.events
      && NotifierCall(Call(n.id, STATE_EXIT, n.ctx), View(c.sys.devs)) in c.events
      && (forall e :: e in c.events && (e.StateSet? || e.NotifierCall?) ==> d < |e.view| && e.view[d] == DeviceState.Active)
      && NextGet(true, c.sys.policy, cpu) == Some(Decide(sys.policy, cpu, choice).info)
      && var p := RuntimePut(c.sys.devs, d);
         p.ok && p.devs[d].state == Suspended
  {
    var g := RuntimeGet(sys.devs, d);
    var held := sys.(devs := g.devs);
    assert g.ok && g.devs[d].usage == 1;
    assert forall j :: 0 <= j < |g.devs| ==> g.devs[j].failsOn == {};
    assert Proceeds(held, cpu, choice);
    var c := IdleCycle(held, cpu, choice);
    assert !WillSuspend(g.devs[d]);
    IdleCycleEntry(held, cpu, choice);
    IdleCycleExit(held, cpu, choice);
    IdleCycleNotifierDirections(held, cpu, choice);
    IdleCycleFrame(held, cpu, choice);
    SuiteNotifierSelected(held, n, KeyOf(Decide(sys.policy, cpu, choice).info));
    assert SuspendedView(g.devs)[d] == DeviceState.Active;
    assert c.sys.devs[d] == g.devs[d];
  }

  /** Runtime PM disabled on the device before the system goes idle: the
      device is active once it is taken back, the entry notifiers and
      `pm_state_set` see it suspended, the exit notifiers see it active
      again, and handing it back to runtime PM afterwards suspends it. */
  lemma RuntimeDisableLetsSystemSuspend(sys: System, cpu: uint8, choice: StateInfo, d: nat, n: Notifier)
    requires HasCpu(sys.policy, cpu) && RuntimeDevice(sys, d)
    requires forall j :: 0 <= j < |sys.devs| ==> Settled(sys.devs[j])
    requires SuiteNotifier(sys, n) && DecidesSuspendToIdle(sys, cpu, choice)
    ensures var dis := RuntimeDisable(sys.devs, d);
      var c := IdleCycle(sys.(devs := dis.devs), cpu, choice);
      && dis.ok && dis.devs[d].state == DeviceState.Active && !dis.devs[d].runtimeEnabled
      && NotifierCall(Call(n.id, STATE_ENTRY, n.ctx), SuspendedView(dis.devs)) in c.events
      && NotifierCall(Call(n.id, STATE_EXIT, n.ctx), View(c.sys.devs)) in c.events
      && (forall e :: e in c.events && (e.StateSet? || (e.NotifierCall? && e.call.direction == STATE_ENTRY)) ==>
            d < |e.view| && e.view[d] == Suspended)
      && (forall e :: e in c.events && e.NotifierCall? && e.call.direction == STATE_EXIT ==>
            d < |e.view| && e.view[d] == DeviceState.Active)
      && var en := RuntimeEnable(c.sys.devs, d);
         en.ok && en.devs[d].runtimeEnabled && en.devs[d].state == Suspended
  {
    var dis := RuntimeDisable(sys.devs, d);
    var free := sys.(devs := dis.devs);
    assert dis.ok;
    assert forall j :: 0 <= j < |dis.devs| ==> dis.devs[j].failsOn == {} && Settled(dis.devs[j]);
    assert WillSuspend(dis.devs[d]);
    assert Proceeds(free, cpu, choice);
    IdleCycleEntry(free, cpu, choice);
    IdleCycleExit(free, cpu, choice);
    IdleCycleRestores(free, cpu, choice);
    SuiteNotifierSelected(free, n, KeyOf(Decide(sys.policy, cpu, choice).info));
    assert SuspendedView(dis.devs)[d] == Suspended;
  }

  /** A single-CPU system reports no states for CPU 1. */
  lemma EmptyStates(cfg: PmConfig)
    requires |cfg.cpusStates| == 1 && |cfg.statesPerCpu| == 1
    ensures CpuGetAll(cfg, 1).count == 0
  {
  }

  /** On a board with a suspend-to-idle state, the suite's notifier,
      registered for suspend-to-idle and unregistered after the test,
      leaves the registry as it was; the teardown's second unregistration
      is refused. */
  lemma NotifierRegistration(states: seq<StateInfo>, reg: Registry, n: Notifier)
    requires Configured(states, Key(SuspendToIdle, 0)) && !IsRegistered(reg, n.id)
    ensures var r1 := Register(true, states, reg, n, SuspendToIdle, 0);
      var r2 := Unregister(true, r1.reg, n, SuspendToIdle, 0);
      && r1.code == 0 && r2.code == 0 && r2.reg == reg
      && Unregister(true, r2.reg, n, SuspendToIdle, 0).code < 0
  {
    RegisterUnregisterRoundTrip(states, reg, n, SuspendToIdle, 0);
  }
}

=== FILE: state_table.dfy ===
/** The per-CPU power-state tables of `subsys/pm/state.c`: the build-time
    consistency check over the devicetree nodes, the bounds-checked table
    query, and the first-match searches by (state, substate). */
module PmStateTable {
  import opened PmTypes

  // ---------------------------------------------------------------------
  // Build-time consistency of the devicetree power states
  // ---------------------------------------------------------------------

  /** A `zephyr,power-state` devicetree node as the build-time check reads
      it: either timing property may be absent. */
  datatype DtPowerState = DtPowerState(
    state: PmState,
    substateId: uint8,
    minResidencyUs: Option<nat>,
    exitLatencyUs: Option<nat>)

  /** A child of the `/cpus` node; its `cpu-power-states` property may be
      absent, and `okay` says whether its `status` is okay. */
  datatype DtCpu = DtCpu(cpuPowerStates: Option<seq<DtPowerState>>, okay: bool)

  /** A devicetree property read with a default for when it is absent. */
  function PropOr(p: Option<nat>, default: nat): nat
  {
    match p
    case Some(v) => v
    case None => default
  }

  /** The power states a CPU node lists; an absent property lists none. */
  function PowerStatesOf(cpu: DtCpu): seq<DtPowerState>
  {
    match cpu.cpuPowerStates
    case Some(states) => states
    case None => []
  }

  /** The condition of one consistency assertion: the minimum residency is
      at least the exit latency, an absent property reading as 0. */
  predicate StateConsistent(s: DtPowerState)
  {
    PropOr(s.minResidencyUs, 0) >= PropOr(s.exitLatencyUs, 0)
  }

  /** Every power state of every CPU node is consistent. */
  ghost predicate AllConsistent(cpus: seq<DtCpu>)
  {
    forall c, i :: 0 <= c < |cpus| && 0 <= i < |PowerStatesOf(cpus[c])| ==>
      StateConsistent(PowerStatesOf(cpus[c])[i])
  }

  /** The positions (cpu `c`, state index) among the first `n` states of one
      CPU whose assertion fails, in listing order. */
  function FailingStates(states: seq<DtPowerState>, c: nat, n: nat): (r: seq<(nat, nat)>)
    requires n <= |states|
    ensures forall p :: p in r <==> p.0 == c && p.1 < n && !StateConsistent(states[p.1])
    decreases n
  {
    if n == 0 then []
    else
      FailingStates(states, c, n - 1) +
      (if StateConsistent(states[n - 1]) then [] else [(c, n - 1)])
  }

  /** The failing assertions over the first `k` CPU nodes. */
  function FailingCpus(cpus: seq<DtCpu>, k: nat): (r: seq<(nat, nat)>)
    requires k <= |cpus|
    ensures forall p :: p in r <==>
      p.0 < k && p.1 < |PowerStatesOf(cpus[p.0])| && !StateConsistent(PowerStatesOf(cpus[p.0])[p.1])
    decreases k
  {
    if k == 0 then []
    else FailingCpus(cpus, k - 1) + FailingStates(PowerStatesOf(cpus[k - 1]), k - 1, |PowerStatesOf(cpus[k - 1])|)
  }

  /** No failing position is recorded exactly when every state of every
      CPU node is consistent. */
  lemma NoFailureIffConsistent(cpus: seq<DtCpu>)
    ensures FailingCpus(cpus, |cpus|) == [] <==> AllConsistent(cpus)
  {
    var r := FailingCpus(cpus, |cpus|);
    if r != [] {
      assert r[0] in r;
    } else {
      forall c, i | 0 <= c < |cpus| && 0 <= i < |PowerStatesOf(cpus[c])|
        ensures StateConsistent(PowerStatesOf(cpus[c])[i])
      {
        assert (c, i) !in r;
      }
    }
  }

  /** The consistency check run over all CPU nodes at build time: the
      (cpu, state index) of every assertion that stops the build. The build
      goes through exactly when every configured state is consistent. */
  function ConsistencyCheck(cpus: seq<DtCpu>): (failures: seq<(nat, nat)>)
    ensures failures == [] <==> AllConsistent(cpus)
    ensures forall p :: p in failures ==>
      p.0 < |cpus| && p.1 < |PowerStatesOf(cpus[p.0])| && !StateConsistent(PowerStatesOf(cpus[p.0])[p.1])
  {
    NoFailureIffConsistent(cpus);
    FailingCpus(cpus, |cpus|)
  }

  /** The `pm_state_info` record built from a devicetree node, absent
      timing properties reading as 0. */
  function ToStateInfo(s: DtPowerState): (r: StateInfo)
    ensures r.state == s.state && r.substateId == s.substateId
    ensures r.minResidencyUs >= r.exitLatencyUs <==> StateConsistent(s)
  {
    StateInfo(s.state, s.substateId, PropOr(s.minResidencyUs, 0), PropOr(s.exitLatencyUs, 0))
  }

  /** A power-state table every entry of which stays at least as long as
      it takes to leave. */
  ghost predicate WellFormedTable(t: seq<StateInfo>)
  {
    forall i :: 0 <= i < |t| ==> t[i].minResidencyUs >= t[i].exitLatencyUs
  }

  /** The table of one CPU node, in listing order. */
  function TableOf(cpu: DtCpu): seq<StateInfo>
  {
    seq(|PowerStatesOf(cpu)|, i requires 0 <= i < |PowerStatesOf(cpu)| => ToStateInfo(PowerStatesOf(cpu)[i]))
  }

  /** The per-CPU tables actually built, one per child of `/cpus` whose
      status is okay, in devicetree order. */
  function OkayTables(cpus: seq<DtCpu>): (r: seq<seq<StateInfo>>)
    ensures |r| <= |cpus|
    ensures forall t :: t in r <==> exists c :: 0 <= c < |cpus| && cpus[c].okay && t == TableOf(cpus[c])
    decreases |cpus|
  {
    if cpus == [] then []
    else
      var init := cpus[..|cpus| - 1];
      var last := cpus[|cpus| - 1];
      var rest := OkayTables(init);
      assert forall c :: 0 <= c < |init| ==> init[c] == cpus[c];
      if last.okay then rest + [TableOf(last)] else rest
  }

  /** The tables follow devicetree order: a further `/cpus` child adds its
      table at the end exactly when its status is okay. */
  lemma OkayTablesAppend(cpus: seq<DtCpu>, cpu: DtCpu)
    ensures OkayTables(cpus + [cpu]) == OkayTables(cpus) + (if cpu.okay then [TableOf(cpu)] else [])
  {
    assert (cpus + [cpu])[..|cpus + [cpu]| - 1] == cpus;
  }

  /** When every child is okay, the `c`-th table is the `c`-th child's. */
  lemma {:induction false} OkayTablesAllOkay(cpus: seq<DtCpu>)
    requires forall c :: 0 <= c < |cpus| ==> cpus[c].okay
    ensures |OkayTables(cpus)| == |cpus|
    ensures forall c :: 0 <= c < |cpus| ==> OkayTables(cpus)[c] == TableOf(cpus[c])
    decreases |cpus|
  {
    if cpus != [] {
      var init := cpus[..|cpus| - 1];
      OkayTablesAllOkay(init);
      assert init + [cpus[|cpus| - 1]] == cpus;
      OkayTablesAppend(init, cpus[|cpus| - 1]);
    }
  }

  /** The build-time check walks every child of `/cpus`, disabled ones
      included, while only the okay ones get a table: when the check
      passes, every table built is well formed; when every child is okay,
      the converse holds too. */
  lemma {:induction false} ConsistentTablesWellFormed(cpus: seq<DtCpu>)
    ensures ConsistencyCheck(cpus) == [] ==> forall t :: t in OkayTables(cpus) ==> WellFormedTable(t)
    ensures (forall c :: 0 <= c < |cpus| ==> cpus[c].okay) ==>
      (ConsistencyCheck(cpus) == [] <==> forall t :: t in OkayTables(cpus) ==> WellFormedTable(t))
  {
    if ConsistencyCheck(cpus) == [] {
      forall t: seq<StateInfo> | t in OkayTables(cpus) ensures WellFormedTable(t) {
        var c :| 0 <= c < |cpus| && cpus[c].okay && t == TableOf(cpus[c]);
        forall i | 0 <= i < |t| ensures t[i].minResidencyUs >= t[i].exitLatencyUs {
          assert StateConsistent(PowerStatesOf(cpus[c])[i]);
        }
      }
    } else {
      var p := ConsistencyCheck(cpus)[0];
      assert p in ConsistencyCheck(cpus);
      if cpus[p.0].okay {
        var t := TableOf(cpus[p.0]);
        assert t in OkayTables(cpus);
        assert !(t[p.1].minResidencyUs >= t[p.1].exitLatencyUs);
      }
    }
  }

  /** A disabled CPU node with an inconsistent power state still stops the
      build, although no table is built from it. */
  lemma DisabledNodeStopsBuild()
    ensures var bad := DtPowerState(Standby, 0, Some(1), Some(2));
      var cpus := [DtCpu(Some([bad]), false)];
      ConsistencyCheck(cpus) != [] && OkayTables(cpus) == []
  {
    var bad := DtPowerState(Standby, 0, Some(1), Some(2));
    var cpus := [DtCpu(Some([bad]), false)];
    assert !StateConsistent(PowerStatesOf(cpus[0])[0]);
  }

  // ---------------------------------------------------------------------
  // Static tables and their queries
  // ---------------------------------------------------------------------

  /** The static tables of the state module. */
  datatype PmConfig = PmConfig(
    mpNumCpus: nat,                    // CONFIG_MP_NUM_CPUS
    cpusStates: seq<seq<StateInfo>>,   // cpus_states[], one table per CPU
    statesPerCpu: seq<uint8>,          // states_per_cpu[]
    statesAll: seq<StateInfo>)         // pmstates_all[], the shared SMP list

  /** Both per-CPU arrays come from the same walk over the CPU nodes, and
      each count is the length of its table. */
  ghost predicate TablesAgree(cfg: PmConfig)
  {
    && |cfg.cpusStates| == |cfg.statesPerCpu|
    && forall c :: 0 <= c < |cfg.cpusStates| ==> cfg.statesPerCpu[c] == |cfg.cpusStates[c]|
  }

  /** The outcome of the table query: the count returned, and what was
      stored through the out-pointer (`None`: left untouched). */
  datatype GetAll = GetAll(count: uint8, states: Option<seq<StateInfo>>)

  /** `pm_state_cpu_get_all`: a CPU index past the table list yields 0 and
      leaves the out-pointer alone; otherwise that CPU's table and its
      count. */
  function CpuGetAll(cfg: PmConfig, cpu: uint8): (r: GetAll)
    requires |cfg.cpusStates| == |cfg.statesPerCpu|
    ensures cpu >= |cfg.cpusStates| ==> r.count == 0 && r.states.None?
    ensures cpu < |cfg.cpusStates| ==>
      r.states == Some(cfg.cpusStates[cpu]) && r.count == cfg.statesPerCpu[cpu]
  {
    if cpu >= |cfg.cpusStates| then GetAll(0, None)
    else GetAll(cfg.statesPerCpu[cpu], Some(cfg.cpusStates[cpu]))
  }

  /** With consistent tables, whatever the query hands out can be walked
      for exactly the count it returns, and a non-zero count means the CPU
      exists. */
  lemma CpuGetAllCountIsLength(cfg: PmConfig, cpu: uint8)
    requires TablesAgree(cfg)
    ensures CpuGetAll(cfg, cpu).states.Some? ==>
      CpuGetAll(cfg, cpu).count == |CpuGetAll(cfg, cpu).states.value|
    ensures CpuGetAll(cfg, cpu).count > 0 ==> cpu < |cfg.cpusStates|
  {
  }

  /** `k` is the lowest index below `n` whose entry has the pair. */
  ghost predicate IsFirstMatch(t: seq<StateInfo>, n: nat, k: int, state: PmState, substateId: uint8)
  {
    && 0 <= k < n <= |t|
    && Matches(t[k], state, substateId)
    && forall j :: 0 <= j < k ==> !Matches(t[j], state, substateId)
  }

  /** No entry below `n` has the pair. */
  ghost predicate NoMatch(t: seq<StateInfo>, n: nat, state: PmState, substateId: uint8)
  {
    forall j :: 0 <= j < n && j < |t| ==> !Matches(t[j], state, substateId)
  }

  /** The first match is unique. */
  lemma FirstMatchUnique(t: seq<StateInfo>, n: nat, k: int, k': int, state: PmState, substateId: uint8)
    requires IsFirstMatch(t, n, k, state, substateId)
    requires IsFirstMatch(t, n, k', state, substateId)
    ensures k == k'
  {
  }

  /** The loop body of both searches, started at index `i` with bound `n`:
      the first index in `[i, n)` whose entry has the pair. */
  function Scan(t: seq<StateInfo>, n: nat, i: nat, state: PmState, substateId: uint8): (r: Option<nat>)
    requires i <= n <= |t|
    ensures r.Some? ==>
      && i <= r.value < n
      && Matches(t[r.value], state, substateId)
      && forall j :: i <= j < r.value ==> !Matches(t[j], state, substateId)
    ensures r.None? ==> forall j :: i <= j < n ==> !Matches(t[j], state, substateId)
    decreases n - i
  {
    if i == n then None
    else if Matches(t[i], state, substateId) then Some(i)
    else Scan(t, n, i + 1, state, substateId)
  }

  /** `pm_state_cpu_get_index`: the first index of CPU `cpu`'s table with
      the pair, converted to the `int8_t` return type, or -1. Indices from
      128 on come back negative. */
  function CpuGetIndex(cfg: PmConfig, cpu: uint8, state: PmState, substateId: uint8): (r: int8)
    requires cpu < |cfg.cpusStates| && cpu < |cfg.statesPerCpu|
    requires cfg.statesPerCpu[cpu] <= |cfg.cpusStates[cpu]|
    ensures r >= 0 ==> IsFirstMatch(cfg.cpusStates[cpu], cfg.statesPerCpu[cpu], r, state, substateId)
    ensures r < 0 ==>
      || (r == -1 && NoMatch(cfg.cpusStates[cpu], cfg.statesPerCpu[cpu], state, substateId))
      || IsFirstMatch(cfg.cpusStates[cpu], cfg.statesPerCpu[cpu], r as int + 0x100, state, substateId)
    ensures NoMatch(cfg.cpusStates[cpu], cfg.statesPerCpu[cpu], state, substateId) ==> r == -1
  {
    match Scan(cfg.cpusStates[cpu], cfg.statesPerCpu[cpu], 0, state, substateId)
    case Some(k) => ToInt8(k)
    case None => -1
  }

  /** The per-CPU search returns the first matching index, truncated to
      `int8_t`. */
  lemma CpuGetIndexIsFirstMatch(cfg: PmConfig, cpu: uint8, state: PmState, substateId: uint8, k: nat)
    requires cpu < |cfg.cpusStates| && cpu < |cfg.statesPerCpu|
    requires cfg.statesPerCpu[cpu] <= |cfg.cpusStates[cpu]|
    requires IsFirstMatch(cfg.cpusStates[cpu], cfg.statesPerCpu[cpu], k, state, substateId)
    ensures k < 0x100 && CpuGetIndex(cfg, cpu, state, substateId) == ToInt8(k)
  {
    var t, n := cfg.cpusStates[cpu], cfg.statesPerCpu[cpu];
    var r := CpuGetIndex(cfg, cpu, state, substateId);
    assert !NoMatch(t, n, state, substateId) by {
      assert Matches(t[k], state, substateId);
    }
    if r >= 0 {
      FirstMatchUnique(t, n, r, k, state, substateId);
    } else {
      FirstMatchUnique(t, n, r as int + 0x100, k, state, substateId);
    }
  }

  /** With at most 128 entries the `int8_t` result is faithful: -1 exactly
      when no entry has the pair, otherwise the lowest matching index. */
  lemma CpuGetIndexFaithful(cfg: PmConfig, cpu: uint8, state: PmState, substateId: uint8)
    requires cpu < |cfg.cpusStates| && cpu < |cfg.statesPerCpu|
    requires cfg.statesPerCpu[cpu] <= |cfg.cpusStates[cpu]|
    requires cfg.statesPerCpu[cpu] <= 0x80
    ensures var r := CpuGetIndex(cfg, cpu, state, substateId);
      && (r == -1 <==> NoMatch(cfg.cpusStates[cpu], cfg.statesPerCpu[cpu], state, substateId))
      && (r != -1 ==> IsFirstMatch(cfg.cpusStates[cpu], cfg.statesPerCpu[cpu], r, state, substateId))
  {
  }

  /** Beyond 128 entries the result is not faithful: a table whose only
      entry with the pair sits at index 254 answers -2, which a caller
      testing for a negative result reads as "no such state". */
  lemma CpuGetIndexWrapsNegative(cfg: PmConfig, state: PmState, substateId: uint8)
    requires |cfg.cpusStates| == 1 && |cfg.statesPerCpu| == 1
    requires cfg.statesPerCpu[0] == 0xFF && |cfg.cpusStates[0]| == 0xFF
    requires forall j :: 0 <= j < 0xFE ==> !Matches(cfg.cpusStates[0][j], state, substateId)
    requires Matches(cfg.cpusStates[0][0xFE], state, substateId)
    ensures CpuGetIndex(cfg, 0, state, substateId) == -2
  {
    CpuGetIndexIsFirstMatch(cfg, 0, state, substateId, 0xFE);
  }

  /** The result of a search whose loop may not terminate. */
  datatype Lookup = Returns(index: int8) | Loops

  /** `pm_state_get_index` on SMP builds: the first index of the shared list
      with the pair, as `int8_t`, or -1. The counter is a `uint8_t`: when
      the list has 256 entries or more, `i < ARRAY_SIZE(...)` never fails,
      the counter wraps from 255 to 0, and the loop cycles over the first
      256 entries for ever unless one of them matches. */
  function SmpGetIndex(all: seq<StateInfo>, state: PmState, substateId: uint8): (r: Lookup)
    ensures |all| < 0x100 ==> r.Returns?
    ensures r.Loops? <==> |all| >= 0x100 && NoMatch(all, 0x100, state, substateId)
    ensures r.Returns? && r.index >= 0 ==> IsFirstMatch(all, |all|, r.index, state, substateId)
    ensures r.Returns? && r.index < 0 ==>
      || (r.index == -1 && NoMatch(all, |all|, state, substateId))
      || IsFirstMatch(all, |all|, r.index as int + 0x100, state, substateId)
    ensures NoMatch(all, |all|, state, substateId) && |all| < 0x100 ==> r == Returns(-1)
  {
    var bound := if |all| < 0x100 then |all| else 0x100;
    match Scan(all, bound, 0, state, substateId)
    case Some(k) => Returns(ToInt8(k))
    case None => if |all| < 0x100 then Returns(-1) else Loops
  }

  /** `pm_state_get_index`: on SMP builds a search of the shared list,
      whatever the per-CPU tables hold; on single-CPU builds the search of
      CPU 0's table, which always returns. */
  function GetIndex(cfg: PmConfig, state: PmState, substateId: uint8): (r: Lookup)
    requires cfg.mpNumCpus <= 1 ==>
      && 0 < |cfg.cpusStates| && 0 < |cfg.statesPerCpu|
      && cfg.statesPerCpu[0] <= |cfg.cpusStates[0]|
    ensures cfg.mpNumCpus <= 1 ==> r == Returns(CpuGetIndex(cfg, 0, state, substateId))
    ensures cfg.mpNumCpus > 1 ==> r == SmpGetIndex(cfg.statesAll, state, substateId)
    ensures cfg.mpNumCpus <= 1 && cfg.statesPerCpu[0] <= 0x80 ==>
      && (r.index == -1 <==> NoMatch(cfg.cpusStates[0], cfg.statesPerCpu[0], state, substateId))
      && (r.index != -1 ==> IsFirstMatch(cfg.cpusStates[0], cfg.statesPerCpu[0], r.index, state, substateId))
    ensures cfg.mpNumCpus > 1 && |cfg.statesAll| <= 0x80 ==>
      && r.Returns?
      && (r.index == -1 <==> NoMatch(cfg.statesAll, |cfg.statesAll|, state, substateId))
      && (r.index != -1 ==> IsFirstMatch(cfg.statesAll, |cfg.statesAll|, r.index, state, substateId))
  {
    if cfg.mpNumCpus > 1 then SmpGetIndex(cfg.statesAll, state, substateId)
    else Returns(CpuGetIndex(cfg, 0, state, substateId))
  }

  /** On SMP builds the answer depends only on the shared list. */
  lemma SmpGetIndexIgnoresCpuTables(cfg: PmConfig, cfg': PmConfig, state: PmState, substateId: uint8)
    requires cfg.mpNumCpus > 1 && cfg'.mpNumCpus > 1
    requires cfg.statesAll == cfg'.statesAll
    ensures GetIndex(cfg, state, substateId) == GetIndex(cfg', state, substateId)
  {
  }
}

=== FILE: system.dfy ===
/** The system power transition run from the idle thread: decide the next
    state, suspend the devices in reverse initialization order, notify
    entry, hand the state to `pm_state_set`, run `pm_state_exit_post_ops`,
    resume the suspended devices in initialization order, and notify exit.
    The result is the trace of callback and hook invocations, each with the
    device states visible to it. */
module PmSystem {
  import opened PmTypes
  import opened PmNotifier
  import opened PmPolicy
  import opened PmDevice

  // ---------------------------------------------------------------------
  // Device suspend pass
  // ---------------------------------------------------------------------

  /** Not excluded from a system suspend: ready, not locked, and not held
      active by runtime references. */
  predicate Eligible(dev: Device)
  {
    dev.ready && !dev.locked && !(dev.runtimeEnabled && dev.usage > 0)
  }

  /** The pass runs this device's suspend callback. */
  predicate WillSuspend(dev: Device)
  {
    Eligible(dev) && dev.state != Suspended
  }

  /** The action callbacks in `events` run for strictly decreasing
      device indices. */
  ghost predicate CallsDescending(events: seq<Event>)
  {
    forall p, q :: 0 <= p < q < |events| && events[p].ActionCall? && events[q].ActionCall? ==>
      events[p].dev > events[q].dev
  }

  /** Strictly decreasing device indices. */
  ghost predicate Descending(s: seq<nat>)
  {
    forall p, q :: 0 <= p < q < |s| ==> s[p] > s[q]
  }

  /** The outcome of a pass: success, the devices after it, the devices it
      moved (in the order it moved them), and its callback invocations. */
  datatype Pass = Pass(ok: bool, devs: seq<Device>, moved: seq<nat>, events: seq<Event>)

  /** What device `d`'s suspend callback sees when the pass over devices
      below `k` reaches it: the devices above it that the pass suspends are
      already suspended, `d` itself is suspending, the rest untouched. */
  function SuspendView(devs: seq<Device>, k: nat, d: nat): (v: seq<DeviceState>)
    ensures |v| == |devs|
  {
    seq(|devs|, j requires 0 <= j < |devs| =>
      if j == d then Suspending
      else if d < j < k && WillSuspend(devs[j]) then Suspended
      else devs[j].state)
  }

  /** Every device the pass would suspend below `k` reports success. */
  ghost predicate SuspendSucceeds(devs: seq<Device>, k: nat)
    requires k <= |devs|
  {
    forall j :: 0 <= j < k && WillSuspend(devs[j]) ==> Suspend !in devs[j].failsOn
  }

  lemma SuspendViewStep(devs: seq<Device>, k: nat, d: nat, devs': seq<Device>, x: nat)
    requires 0 < k <= |devs| && d == k - 1 && x < d
    requires |devs'| == |devs|
    requires forall j :: 0 <= j < |devs| && j != d ==> devs'[j] == devs[j]
    requires WillSuspend(devs[d]) ==> devs'[d].state == Suspended
    requires !WillSuspend(devs[d]) ==> devs'[d] == devs[d]
    ensures SuspendView(devs', d, x) == SuspendView(devs, k, x)
  {
    var v, w := SuspendView(devs', d, x), SuspendView(devs, k, x);
    forall j | 0 <= j < |devs|
      ensures v[j] == w[j]
    {
    }
  }

  /** The suspend pass over the devices below `k`, from the highest index
      down. Excluded devices and devices already suspended are skipped; the
      first failing callback ends the pass, leaving the devices suspended
      so far suspended. */
  function SuspendDevices(devs: seq<Device>, k: nat): (r: Pass)
    requires k <= |devs|
    ensures |r.devs| == |devs|
    ensures forall x :: x in r.moved ==> x < k
    decreases k
  {
    if k == 0 then Pass(true, devs, [], [])
    else
      var d := k - 1;
      if !WillSuspend(devs[d]) then SuspendDevices(devs, d)
      else
        var run := RunAction(devs, d, Suspend);
        if run.outcome == Failed then Pass(false, devs, [], run.events)
        else
          var rest := SuspendDevices(run.devs, d);
          Pass(rest.ok, rest.devs, [d] + rest.moved, run.events + rest.events)
  }

  /** The suspend pass changes only the devices below `k` it acts on, and
      those only by suspending them: exactly the devices it records for
      resumption end up suspended, and every other device, including the
      one whose callback failed and those below it, is left as it was. */
  lemma {:induction false} SuspendPassFrame(devs: seq<Device>, k: nat)
    requires k <= |devs|
    ensures var r := SuspendDevices(devs, k);
      && (forall j :: 0 <= j < |devs| && (k <= j || !WillSuspend(devs[j])) ==> r.devs[j] == devs[j])
      && (forall j :: 0 <= j < |devs| ==>
            r.devs[j] == (if j in r.moved then devs[j].(state := Suspended) else devs[j]))
    decreases k
  {
    if k > 0 {
      var d := k - 1;
      if !WillSuspend(devs[d]) {
        SuspendPassFrame(devs, d);
      } else if RunAction(devs, d, Suspend).outcome != Failed {
        var run := RunAction(devs, d, Suspend);
        var rest := SuspendDevices(run.devs, d);
        SuspendPassFrame(run.devs, d);
        assert d !in rest.moved;
      }
    }
  }

  /** The suspend pass only runs suspend callbacks, and only those of the
      devices below `k` it acts on. */
  lemma {:induction false} SuspendPassEvents(devs: seq<Device>, k: nat)
    requires k <= |devs|
    ensures forall e :: e in SuspendDevices(devs, k).events ==>
      e.ActionCall? && e.action == Suspend && e.dev < k && WillSuspend(devs[e.dev])
    decreases k
  {
    if k > 0 {
      var d := k - 1;
      if !WillSuspend(devs[d]) {
        SuspendPassEvents(devs, d);
      } else if RunAction(devs, d, Suspend).outcome != Failed {
        var run := RunAction(devs, d, Suspend);
        SuspendPassEvents(run.devs, d);
        assert forall j :: 0 <= j < d ==> run.devs[j] == devs[j];
      }
    }
  }

  /** The devices the suspend pass moves are listed from the highest index
      down; each is one it acts on and ends up suspended. */
  lemma {:induction false} SuspendPassMoved(devs: seq<Device>, k: nat)
    requires k <= |devs|
    ensures var r := SuspendDevices(devs, k);
      && Descending(r.moved)
      && forall x :: x in r.moved ==> WillSuspend(devs[x]) && r.devs[x] == devs[x].(state := Suspended)
    decreases k
  {
    if k > 0 {
      var d := k - 1;
      if !WillSuspend(devs[d]) {
        SuspendPassMoved(devs, d);
      } else if RunAction(devs, d, Suspend).outcome != Failed {
        var run := RunAction(devs, d, Suspend);
        var rest := SuspendDevices(run.devs, d);
        SuspendPassMoved(run.devs, d);
        SuspendPassFrame(run.devs, d);
        var m := [d] + rest.moved;
        forall p, q | 0 <= p < q < |m| ensures m[p] > m[q] {
          assert m[q] == rest.moved[q - 1] && m[q] in rest.moved;
          if p > 0 {
            assert m[p] == rest.moved[p - 1];
          }
        }
        forall x | x in m ensures WillSuspend(devs[x]) && rest.devs[x] == devs[x].(state := Suspended) {
          if x != d {
            assert x in rest.moved && x < d && run.devs[x] == devs[x];
          } else {
            assert d !in rest.moved;
          }
        }
      }
    }
  }

  /** The suspend pass succeeds exactly when no callback it runs fails,
      and then it has moved every device below `k` it acts on. */
  lemma {:induction false} SuspendPassOk(devs: seq<Device>, k: nat)
    requires k <= |devs|
    ensures var r := SuspendDevices(devs, k);
      && (r.ok <==> SuspendSucceeds(devs, k))
      && (r.ok ==> forall j :: 0 <= j < k && WillSuspend(devs[j]) ==> j in r.moved)
    decreases k
  {
    if k > 0 {
      var d := k - 1;
      if !WillSuspend(devs[d]) {
        SuspendPassOk(devs, d);
      } else if RunAction(devs, d, Suspend).outcome != Failed {
        var run := RunAction(devs, d, Suspend);
        SuspendPassOk(run.devs, d);
        assert forall j :: 0 <= j < d ==> run.devs[j] == devs[j];
      }
    }
  }

  /** The trace `events` of a suspend pass over the devices below `k`
      ends at device `f`: `f` is the highest device acted on whose suspend
      fails, its call is the last event, and no device below it is called. */
  ghost predicate AbortsAt(devs: seq<Device>, k: nat, events: seq<Event>, f: nat)
    requires k <= |devs|
  {
    && f < k && WillSuspend(devs[f]) && Suspend in devs[f].failsOn
    && (forall j :: f < j < k && WillSuspend(devs[j]) ==> Suspend !in devs[j].failsOn)
    && events != [] && events[|events| - 1].ActionCall? && events[|events| - 1].dev == f
    && (forall e :: e in events && e.ActionCall? ==> f <= e.dev)
  }

  /** A failing suspend pass stops at the first failing callback. */
  lemma {:induction false} SuspendPassAborts(devs: seq<Device>, k: nat)
    requires k <= |devs|
    ensures !SuspendDevices(devs, k).ok ==> exists f :: AbortsAt(devs, k, SuspendDevices(devs, k).events, f)
    decreases k
  {
    if k > 0 {
      var d := k - 1;
      if !WillSuspend(devs[d]) {
        SuspendPassAborts(devs, d);
        if !SuspendDevices(devs, d).ok {
          var f :| AbortsAt(devs, d, SuspendDevices(devs, d).events, f);
          assert AbortsAt(devs, k, SuspendDevices(devs, k).events, f);
        }
      } else {
        var run := RunAction(devs, d, Suspend);
        if run.outcome == Failed {
          assert AbortsAt(devs, k, SuspendDevices(devs, k).events, d);
        } else {
          var rest := SuspendDevices(run.devs, d);
          SuspendPassAborts(run.devs, d);
          if !rest.ok {
            var f :| AbortsAt(run.devs, d, rest.events, f);
            AbortsStep(devs, d, run, rest.events, f);
          }
        }
      }
    }
  }

  /** One successful suspend call on device `d` followed by a pass over
      the devices below it that ends at `f`: the whole trace ends at `f`. */
  lemma AbortsStep(devs: seq<Device>, d: nat, run: Run, rest: seq<Event>, f: nat)
    requires d < |devs| && WillSuspend(devs[d]) && run == RunAction(devs, d, Suspend) && run.outcome == Done
    requires AbortsAt(run.devs, d, rest, f)
    ensures AbortsAt(devs, d + 1, run.events + rest, f)
  {
    var events := run.events + rest;
    assert events[|events| - 1] == rest[|rest| - 1];
    assert run.devs[f] == devs[f];
    forall j | f < j < d + 1 && WillSuspend(devs[j]) ensures Suspend !in devs[j].failsOn {
      if j < d {
        assert run.devs[j] == devs[j];
      }
    }
  }

  /** The suspend pass over the devices below `k`: it changes only the
      devices it acts on (eligible and not yet suspended), and those only
      by suspending them; it runs only their suspend callbacks, from the
      highest index down; it succeeds exactly when none of them fails, and
      then every one of them was moved. */
  lemma SuspendPass(devs: seq<Device>, k: nat)
    requires k <= |devs|
    ensures var r := SuspendDevices(devs, k);
      && (forall j :: 0 <= j < |devs| && (k <= j || !WillSuspend(devs[j])) ==> r.devs[j] == devs[j])
      && (forall j :: 0 <= j < |devs| ==>
            r.devs[j] == (if j in r.moved then devs[j].(state := Suspended) else devs[j]))
      && (forall e :: e in r.events ==> e.ActionCall? && e.action == Suspend && e.dev < k && WillSuspend(devs[e.dev]))
      && Descending(r.moved)
      && (forall x :: x in r.moved ==> x < k && WillSuspend(devs[x]) && r.devs[x] == devs[x].(state := Suspended))
      && (r.ok <==> SuspendSucceeds(devs, k))
      && (r.ok ==> forall j :: 0 <= j < k && WillSuspend(devs[j]) ==> j in r.moved)
  {
    SuspendPassFrame(devs, k);
    SuspendPassEvents(devs, k);
    SuspendPassMoved(devs, k);
    SuspendPassOk(devs, k);
  }

  /** Each suspend callback sees the devices above it that the pass
      suspends already suspended, and every other device untouched. */
  lemma {:induction false} SuspendPassViews(devs: seq<Device>, k: nat)
    requires k <= |devs|
    ensures var r := SuspendDevices(devs, k);
      && (forall e :: e in r.events && e.ActionCall? ==> e.view == SuspendView(devs, k, e.dev))
      && (forall x :: x in r.moved ==> ActionCall(x, Suspend, SuspendView(devs, k, x)) in r.events)
    decreases k
  {
    if k > 0 {
      var d := k - 1;
      var r := SuspendDevices(devs, k);
      if !WillSuspend(devs[d]) {
        SuspendPassViews(devs, d);
        SuspendPassEvents(devs, d);
        SuspendViewLemmaSame(devs, k, r.events, r.moved);
      } else if RunAction(devs, d, Suspend).outcome == Failed {
        assert RunAction(devs, d, Suspend).events[0].view == SuspendView(devs, k, d);
      } else {
        SuspendPassViewsDone(devs, k);
      }
    }
  }

  lemma {:induction false} SuspendPassViewsDone(devs: seq<Device>, k: nat)
    requires 0 < k <= |devs|
    requires WillSuspend(devs[k - 1]) && RunAction(devs, k - 1, Suspend).outcome == Done
    ensures var r := SuspendDevices(devs, k);
      && (forall e :: e in r.events && e.ActionCall? ==> e.view == SuspendView(devs, k, e.dev))
      && (forall x :: x in r.moved ==> ActionCall(x, Suspend, SuspendView(devs, k, x)) in r.events)
    decreases k, 0
  {
    var d := k - 1;
    var run := RunAction(devs, d, Suspend);
    var rest := SuspendDevices(run.devs, d);
    SuspendPassViews(run.devs, d);
    SuspendPassEvents(run.devs, d);
    assert run.events[0].view == SuspendView(devs, k, d);
    forall e | e in rest.events
      ensures SuspendView(run.devs, d, e.dev) == SuspendView(devs, k, e.dev)
    {
      SuspendViewStep(devs, k, d, run.devs, e.dev);
    }
    forall x | x in rest.moved
      ensures SuspendView(run.devs, d, x) == SuspendView(devs, k, x)
    {
      SuspendViewStep(devs, k, d, run.devs, x);
    }
  }

  /** The suspend pass runs the callbacks from the highest index down. */
  lemma {:induction false} SuspendPassOrder(devs: seq<Device>, k: nat)
    requires k <= |devs|
    ensures CallsDescending(SuspendDevices(devs, k).events)
    decreases k
  {
    if k > 0 {
      var d := k - 1;
      if !WillSuspend(devs[d]) {
        assert SuspendDevices(devs, k) == SuspendDevices(devs, d);
        SuspendPassOrder(devs, d);
      } else if RunAction(devs, d, Suspend).outcome == Done {
        SuspendPassOrderDone(devs, k);
      }
    }
  }

  lemma {:induction false} SuspendPassOrderDone(devs: seq<Device>, k: nat)
    requires 0 < k <= |devs|
    requires WillSuspend(devs[k - 1]) && RunAction(devs, k - 1, Suspend).outcome == Done
    ensures CallsDescending(SuspendDevices(devs, k).events)
    decreases k, 0
  {
    var d := k - 1;
    var run := RunAction(devs, d, Suspend);
    var rest := SuspendDevices(run.devs, d);
    SuspendPassOrder(run.devs, d);
    SuspendPassEvents(run.devs, d);
    CallsDescendingCons(run.events[0], rest.events);
  }

  lemma CallsDescendingCons(e: Event, rest: seq<Event>)
    requires e.ActionCall? && CallsDescending(rest)
    requires forall x :: x in rest ==> x.ActionCall? && x.dev < e.dev
    ensures CallsDescending([e] + rest)
  {
    var events := [e] + rest;
    forall p, q | 0 <= p < q < |events| && events[p].ActionCall? && events[q].ActionCall?
      ensures events[p].dev > events[q].dev
    {
      assert events[q] == rest[q - 1];
      if p > 0 {
        assert events[p] == rest[p - 1];
      } else {
        assert rest[q - 1] in rest;
      }
    }
  }

  lemma SuspendViewLemmaSame(devs: seq<Device>, k: nat, events: seq<Event>, moved: seq<nat>)
    requires 0 < k <= |devs| && !WillSuspend(devs[k - 1])
    requires forall e :: e in events ==> e.ActionCall? && e.dev < k - 1
    requires forall x :: x in moved ==> x < k - 1
    ensures forall e :: e in events ==> SuspendView(devs, k - 1, e.dev) == SuspendView(devs, k, e.dev)
    ensures forall x :: x in moved ==> SuspendView(devs, k - 1, x) == SuspendView(devs, k, x)
  {
    forall e | e in events
      ensures SuspendView(devs, k - 1, e.dev) == SuspendView(devs, k, e.dev)
    {
      SuspendViewStep(devs, k, k - 1, devs, e.dev);
    }
    forall x | x in moved
      ensures SuspendView(devs, k - 1, x) == SuspendView(devs, k, x)
    {
      SuspendViewStep(devs, k, k - 1, devs, x);
    }
  }

  // ---------------------------------------------------------------------
  // Device resume pass
  // ---------------------------------------------------------------------

  /** A device whose callback the resume pass may run. */
  predicate Resumable(dev: Device)
  {
    dev.ready && !dev.locked
  }

  /** The action callbacks in `events` run for strictly increasing device
      indices. */
  ghost predicate CallsAscending(events: seq<Event>)
  {
    forall p, q :: 0 <= p < q < |events| && events[p].ActionCall? && events[q].ActionCall? ==>
      events[p].dev < events[q].dev
  }

  /** Every device the resume pass over `s` acts on reports success. */
  ghost predicate ResumeSucceeds(devs: seq<Device>, s: seq<nat>)
    requires forall x :: x in s ==> x < |devs|
  {
    forall x :: x in s && Resumable(devs[x]) && devs[x].state != DeviceState.Active ==> Resume !in devs[x].failsOn
  }

  /** The resume pass over the devices listed in `s`, from the last listed
      to the first; the first failing callback ends the pass, leaving the
      devices not yet resumed as they are. */
  function ResumeDevices(devs: seq<Device>, s: seq<nat>): (r: Pass)
    requires forall x :: x in s ==> x < |devs|
    ensures |r.devs| == |devs|
    decreases |s|
  {
    if s == [] then Pass(true, devs, [], [])
    else
      var d := s[|s| - 1];
      var init := s[..|s| - 1];
      assert s == init + [d];
      assert d in s;
      assert forall x :: x in s <==> x in init || x == d;
      var run := RunAction(devs, d, Resume);
      if run.outcome == Failed then Pass(false, devs, [], run.events)
      else
        var rest := ResumeDevices(run.devs, init);
        Pass(rest.ok, rest.devs, [d] + rest.moved, run.events + rest.events)
  }

  /** The resume pass changes only the listed devices, and those only by
      making them active. */
  lemma {:induction false} ResumePassFrame(devs: seq<Device>, s: seq<nat>)
    requires forall x :: x in s ==> x < |devs|
    ensures var r := ResumeDevices(devs, s);
      && (forall j :: 0 <= j < |devs| && j !in s ==> r.devs[j] == devs[j])
      && (forall j :: 0 <= j < |devs| ==> r.devs[j] == devs[j] || r.devs[j] == devs[j].(state := DeviceState.Active))
    decreases |s|
  {
    if s != [] {
      var d := s[|s| - 1];
      var init := s[..|s| - 1];
      assert s == init + [d];
      assert d in s;
      assert forall x :: x in s <==> x in init || x == d;
      if RunAction(devs, d, Resume).outcome != Failed {
        ResumePassFrame(RunAction(devs, d, Resume).devs, init);
      }
    }
  }

  /** The resume pass only runs resume callbacks, and only those of listed
      devices that are ready and not locked. */
  lemma {:induction false} ResumePassEvents(devs: seq<Device>, s: seq<nat>)
    requires forall x :: x in s ==> x < |devs|
    ensures forall e :: e in ResumeDevices(devs, s).events ==>
      e.ActionCall? && e.action == Resume && e.dev in s && Resumable(devs[e.dev])
    decreases |s|
  {
    if s != [] {
      var d := s[|s| - 1];
      var init := s[..|s| - 1];
      assert s == init + [d];
      assert d in s;
      assert forall x :: x in s <==> x in init || x == d;
      var run := RunAction(devs, d, Resume);
      if run.outcome != Failed {
        ResumePassEvents(run.devs, init);
        assert forall j :: 0 <= j < |devs| && j != d ==> Resumable(run.devs[j]) == Resumable(devs[j]);
        assert Resumable(run.devs[d]) == Resumable(devs[d]);
      }
    }
  }

  /** The resume pass succeeds exactly when no callback it runs fails, and
      then every listed device that is ready and not locked is active. */
  lemma {:induction false} ResumePassOk(devs: seq<Device>, s: seq<nat>)
    requires forall x :: x in s ==> x < |devs|
    ensures var r := ResumeDevices(devs, s);
      && (r.ok <==> ResumeSucceeds(devs, s))
      && (r.ok ==> forall j :: j in s && Resumable(devs[j]) ==> r.devs[j] == devs[j].(state := DeviceState.Active))
    decreases |s|
  {
    if s != [] {
      var d := s[|s| - 1];
      var init := s[..|s| - 1];
      assert s == init + [d];
      assert d in s;
      assert forall x :: x in s <==> x in init || x == d;
      var run := RunAction(devs, d, Resume);
      if run.outcome != Failed {
        ResumePassOk(run.devs, init);
        ResumePassFrame(run.devs, init);
        assert forall j :: 0 <= j < |devs| && j != d ==> run.devs[j] == devs[j];
      }
    }
  }

  /** The resume pass over the devices listed in `s`: it changes only
      listed devices, and those only by making them active; it runs only
      the resume callbacks of listed devices that are ready and not locked;
      it succeeds exactly when none of them fails, and then all of them are
      active. */
  lemma ResumePass(devs: seq<Device>, s: seq<nat>)
    requires forall x :: x in s ==> x < |devs|
    ensures var r := ResumeDevices(devs, s);
      && (forall j :: 0 <= j < |devs| && j !in s ==> r.devs[j] == devs[j])
      && (forall j :: 0 <= j < |devs| ==> r.devs[j] == devs[j] || r.devs[j] == devs[j].(state := DeviceState.Active))
      && (forall e :: e in r.events ==> e.ActionCall? && e.action == Resume && e.dev in s && Resumable(devs[e.dev]))
      && (r.ok <==> ResumeSucceeds(devs, s))
      && (r.ok ==> forall j :: j in s && Resumable(devs[j]) ==> r.devs[j] == devs[j].(state := DeviceState.Active))
  {
    ResumePassFrame(devs, s);
    ResumePassEvents(devs, s);
    ResumePassOk(devs, s);
  }

  /** What device `d`'s resume callback sees when the pass over `s`, listed
      in decreasing index order, reaches it: the listed devices below it are
      active again, `d` itself is resuming, the rest as the pass found them. */
  function ResumeView(devs: seq<Device>, s: seq<nat>, d: nat): (v: seq<DeviceState>)
    ensures |v| == |devs|
  {
    seq(|devs|, j requires 0 <= j < |devs| =>
      if j == d then Resuming
      else if j < d && j in s && Resumable(devs[j]) then DeviceState.Active
      else devs[j].state)
  }

  /** Splitting a list in decreasing order into its last entry `d` and the
      entries `init` before it: `d` is below all of them. */
  lemma DescendingLast(s: seq<nat>, init: seq<nat>, d: nat)
    requires Descending(s) && s == init + [d]
    ensures forall x :: x in init ==> x > d
    ensures Descending(init)
    ensures forall x :: x in s <==> x in init || x == d
  {
    forall x | x in init ensures x > d {
      var i :| 0 <= i < |init| && init[i] == x;
      assert s[i] == x && s[|s| - 1] == d;
    }
    forall p, q | 0 <= p < q < |init| ensures init[p] > init[q] {
      assert s[p] == init[p] && s[q] == init[q];
    }
  }

  lemma ResumeViewStep(devs: seq<Device>, s: seq<nat>, init: seq<nat>, d: nat, devs': seq<Device>, x: nat)
    requires s == init + [d] && d < |devs|
    requires forall y :: y in init ==> y > d
    requires x in init
    requires |devs'| == |devs|
    requires forall j :: 0 <= j < |devs| && j != d ==> devs'[j] == devs[j]
    requires devs'[d] == devs[d] || devs'[d] == devs[d].(state := DeviceState.Active)
    requires Resumable(devs[d]) ==> devs'[d].state == DeviceState.Active
    requires !Resumable(devs[d]) ==> devs'[d] == devs[d]
    ensures ResumeView(devs', init, x) == ResumeView(devs, s, x)
  {
    var v, w := ResumeView(devs', init, x), ResumeView(devs, s, x);
    assert x > d && d !in init;
    forall j | 0 <= j < |devs|
      ensures v[j] == w[j]
    {
      assert j in s <==> j in init || j == d;
      if j == d {
        assert j != x;
      }
    }
  }

  /** Each resume callback sees the listed devices below it active again
      and every other device as the pass found it. */
  lemma {:induction false} ResumePassViews(devs: seq<Device>, s: seq<nat>)
    requires forall x :: x in s ==> x < |devs|
    requires Descending(s)
    ensures forall e :: e in ResumeDevices(devs, s).events && e.ActionCall? ==> e.view == ResumeView(devs, s, e.dev)
    decreases |s|
  {
    if s != [] {
      var d := s[|s| - 1];
      var init := s[..|s| - 1];
      assert s == init + [d];
      DescendingLast(s, init, d);
      assert d in s;
      var run := RunAction(devs, d, Resume);
      assert run.outcome != NoOp ==> run.events[0].view == ResumeView(devs, s, d);
      if run.outcome != Failed {
        var rest := ResumeDevices(run.devs, init);
        ResumePassViews(run.devs, init);
        ResumePassEvents(run.devs, init);
        forall e | e in rest.events
          ensures ResumeView(run.devs, init, e.dev) == ResumeView(devs, s, e.dev)
        {
          ResumeViewStep(devs, s, init, d, run.devs, e.dev);
        }

      }
    }
  }

  /** A resume pass that succeeds runs the callback of every listed device
      it can act on, and that callback sees the view `ResumeView` gives. */
  lemma {:induction false} ResumePassComplete(devs: seq<Device>, s: seq<nat>)
    requires forall x :: x in s ==> x < |devs|
    requires Descending(s)
    ensures ResumeDevices(devs, s).ok ==> forall x :: x in s && Resumable(devs[x]) && devs[x].state != DeviceState.Active ==>
      ActionCall(x, Resume, ResumeView(devs, s, x)) in ResumeDevices(devs, s).events
    decreases |s|
  {
    if s != [] {
      var d := s[|s| - 1];
      var init := s[..|s| - 1];
      assert s == init + [d];
      DescendingLast(s, init, d);
      assert d in s;
      var run := RunAction(devs, d, Resume);
      if run.outcome != Failed {
        var rest := ResumeDevices(run.devs, init);
        ResumePassComplete(run.devs, init);
        assert ResumeDevices(devs, s) == Pass(rest.ok, rest.devs, [d] + rest.moved, run.events + rest.events);
        if rest.ok {
          forall x | x in s && Resumable(devs[x]) && devs[x].state != DeviceState.Active
            ensures ActionCall(x, Resume, ResumeView(devs, s, x)) in run.events + rest.events
          {
            ResumeCompleteStep(devs, s, init, d, run, rest, x);
          }
        }
      }
    }
  }

  /** One step of `ResumePassComplete`: the device `x` listed in `s` gets
      its callback either from the first step on `d` or from the rest of
      the pass. */
  lemma ResumeCompleteStep(devs: seq<Device>, s: seq<nat>, init: seq<nat>, d: nat, run: Run, rest: Pass, x: nat)
    requires s == init + [d] && d < |devs|
    requires forall y :: y in init ==> d < y < |devs|
    requires x in s && Resumable(devs[x]) && devs[x].state != DeviceState.Active
    requires run == RunAction(devs, d, Resume) && run.outcome != Failed
    requires rest.ok
    requires forall y :: y in init && Resumable(run.devs[y]) && run.devs[y].state != DeviceState.Active ==>
      ActionCall(y, Resume, ResumeView(run.devs, init, y)) in rest.events
    ensures ActionCall(x, Resume, ResumeView(devs, s, x)) in run.events + rest.events
  {
    if x == d {
      var v := ResumeView(devs, s, d);
      forall j | 0 <= j < |devs| ensures v[j] == View(devs)[d := Resuming][j] {
        assert j in s <==> j in init || j == d;
      }
      assert run.events[0] == ActionCall(d, Resume, v);
      assert run.events[0] in run.events + rest.events;
    } else {
      assert x in init;
      assert x in s && x < |devs|;
      ResumeViewStep(devs, s, init, d, run.devs, x);
      assert run.devs[x] == devs[x];
      assert ActionCall(x, Resume, ResumeView(run.devs, init, x)) in rest.events;
    }
  }

  /** The resume pass over a list in decreasing index order runs the
      callbacks from the lowest index up. */
  lemma {:induction false} ResumePassOrder(devs: seq<Device>, s: seq<nat>)
    requires forall x :: x in s ==> x < |devs|
    requires Descending(s)
    ensures CallsAscending(ResumeDevices(devs, s).events)
    decreases |s|
  {
    if s != [] {
      var d := s[|s| - 1];
      var init := s[..|s| - 1];
      assert s == init + [d];
      DescendingLast(s, init, d);
      assert d in s;
      var run := RunAction(devs, d, Resume);
      if run.outcome != Failed {
        ResumePassOrder(run.devs, init);
        ResumePassEvents(run.devs, init);
        CallsAscendingCons(run.events, ResumeDevices(run.devs, init).events, d);
      }
    }
  }

  lemma CallsAscendingCons(first: seq<Event>, rest: seq<Event>, d: nat)
    requires |first| <= 1 && forall e :: e in first ==> e.ActionCall? && e.dev == d
    requires CallsAscending(rest)
    requires forall x :: x in rest ==> x.ActionCall? && x.dev > d
    ensures CallsAscending(first + rest)
  {
    var events := first + rest;
    forall p, q | 0 <= p < q < |events| && events[p].ActionCall? && events[q].ActionCall?
      ensures events[p].dev < events[q].dev
    {
      assert events[q] == rest[q - |first|];
      assert rest[q - |first|] in rest;
      if p >= |first| {
        assert events[p] == rest[p - |first|];
      } else {
        assert events[p] in first;
      }
    }
  }

  // ---------------------------------------------------------------------
  // Suspend followed by resume
  // ---------------------------------------------------------------------

  /** When every callback succeeds, resuming the devices the suspend pass
      moved gives back exactly the devices the system started from. */
  lemma SuspendResumeRoundTrip(devs: seq<Device>)
    requires forall j :: 0 <= j < |devs| ==> Settled(devs[j])
    requires SuspendSucceeds(devs, |devs|)
    requires forall j :: 0 <= j < |devs| && WillSuspend(devs[j]) ==> Resume !in devs[j].failsOn
    ensures var sp := SuspendDevices(devs, |devs|);
      && sp.ok
      && ResumeDevices(sp.devs, sp.moved).ok
      && ResumeDevices(sp.devs, sp.moved).devs == devs
  {
    var sp := SuspendDevices(devs, |devs|);
    var rs := ResumeDevices(sp.devs, sp.moved);
    SuspendPass(devs, |devs|);
    ResumePass(sp.devs, sp.moved);
    assert ResumeSucceeds(sp.devs, sp.moved);
    forall j | 0 <= j < |devs|
      ensures rs.devs[j] == devs[j]
    {
      if WillSuspend(devs[j]) {
        assert j in sp.moved;
      }
    }
  }

  /** The device states once a successful suspend pass is over: every
      device the pass acts on is suspended, every other device as it was. */
  function SuspendedView(devs: seq<Device>): (v: seq<DeviceState>)
    ensures |v| == |devs|
  {
    seq(|devs|, j requires 0 <= j < |devs| => if WillSuspend(devs[j]) then Suspended else devs[j].state)
  }

  /** A successful full suspend pass leaves the devices as `SuspendedView`
      describes. */
  lemma SuspendPassResult(devs: seq<Device>)
    requires SuspendSucceeds(devs, |devs|)
    ensures View(SuspendDevices(devs, |devs|).devs) == SuspendedView(devs)
  {
    var sp := SuspendDevices(devs, |devs|);
    SuspendPass(devs, |devs|);
    forall j | 0 <= j < |devs|
      ensures View(sp.devs)[j] == SuspendedView(devs)[j]
    {
      if WillSuspend(devs[j]) {
        assert j in sp.moved;
      }
    }
  }

  // ---------------------------------------------------------------------
  // The idle-path transition
  // ---------------------------------------------------------------------

  /** Everything one CPU's idle path works on: the devices, the notifier
      registry and the policy slots. */
  datatype System = System(devs: seq<Device>, notifiers: Registry, policy: PolicyState)

  /** One pass of the idle path: whether every pass succeeded, the system
      after it, and the trace of callbacks and hooks it ran. */
  datatype Cycle = Cycle(ok: bool, sys: System, events: seq<Event>)

  /** The state the system runs in when it is not asleep. */
  const ActiveInfo: StateInfo := StateInfo(PmState.Active, 0, 0, 0)

  /** Notifier callbacks invoked one after the other, all seeing the same
      device states. */
  function NotifierEvents(calls: seq<Call>, view: seq<DeviceState>): (es: seq<Event>)
    ensures |es| == |calls|
    ensures forall i :: 0 <= i < |calls| ==> es[i] == NotifierCall(calls[i], view)
  {
    seq(|calls|, i requires 0 <= i < |calls| => NotifierCall(calls[i], view))
  }

  /** Only the device states change; every other attribute is kept. */
  ghost predicate OnlyStatesChange(devs: seq<Device>, devs': seq<Device>)
  {
    |devs'| == |devs| && forall j :: 0 <= j < |devs| ==> devs'[j] == devs[j].(state := devs'[j].state)
  }

  /** One entry of the idle thread on CPU `cpu`, where `choice` is what the
      policy hook answers. A decision for `Active` does nothing further.
      Otherwise the devices are suspended from the last initialized down;
      a failing callback abandons the transition there, and the CPU's next
      state falls back to `Active`. On success the
      entry notifiers run, the hardware hooks `pm_state_set` and
      `pm_state_exit_post_ops` follow, the devices the pass suspended are
      resumed in initialization order, and the exit notifiers run. */
  function IdleCycle(sys: System, cpu: uint8, choice: StateInfo): (c: Cycle)
    requires HasCpu(sys.policy, cpu)
    ensures var p := Decide(sys.policy, cpu, choice).policy;
      || c.sys.policy == p
      || (!c.ok && c.sys.policy == p.(next := p.next[cpu := ActiveInfo]))
    ensures c.sys.notifiers == sys.notifiers
    ensures |c.sys.devs| == |sys.devs|
    ensures Decide(sys.policy, cpu, choice).info.state == PmState.Active ==>
      c.ok && c.events == [] && c.sys.devs == sys.devs
  {
    var dec := Decide(sys.policy, cpu, choice);
    var info := dec.info;
    if info.state == PmState.Active then Cycle(true, sys.(policy := dec.policy), [])
    else
      var sp := SuspendDevices(sys.devs, |sys.devs|);
      if !sp.ok then
        var abandoned := dec.policy.(next := dec.policy.next[cpu := ActiveInfo]);
        Cycle(false, System(sp.devs, sys.notifiers, abandoned), sp.events)
      else
        var entry := NotifierEvents(TransitionCalls(sys.notifiers, ActiveInfo, info), View(sp.devs));
        var hw := [StateSet(info, View(sp.devs)), ExitPostOps(info)];
        var rs := ResumeDevices(sp.devs, sp.moved);
        var exit := NotifierEvents(TransitionCalls(sys.notifiers, info, ActiveInfo), View(rs.devs));
        Cycle(rs.ok, System(rs.devs, sys.notifiers, dec.policy), sp.events + entry + hw + rs.events + exit)
  }

  /** The idle path changes only device states, and only of the devices
      the suspend pass acts on; the policy keeps the decision as the CPU's
      next state unless the suspend pass fails, in which case the
      transition is abandoned with only suspend callbacks run and the next
      state is `Active`. */
  lemma IdleCycleFrame(sys: System, cpu: uint8, choice: StateInfo)
    requires HasCpu(sys.policy, cpu)
    ensures var c := IdleCycle(sys, cpu, choice);
      && OnlyStatesChange(sys.devs, c.sys.devs)
      && (forall j :: 0 <= j < |sys.devs| && !WillSuspend(sys.devs[j]) ==> c.sys.devs[j] == sys.devs[j])
      && (!SuspendSucceeds(sys.devs, |sys.devs|) && Decide(sys.policy, cpu, choice).info.state != PmState.Active ==>
            !c.ok && forall e :: e in c.events ==> e.ActionCall? && e.action == Suspend)
      && var p := Decide(sys.policy, cpu, choice).policy;
         c.sys.policy == (if !SuspendSucceeds(sys.devs, |sys.devs|) && Decide(sys.policy, cpu, choice).info.state != PmState.Active
                          then p.(next := p.next[cpu := ActiveInfo]) else p)
  {
    var info := Decide(sys.policy, cpu, choice).info;
    if info.state != PmState.Active {
      var sp := SuspendDevices(sys.devs, |sys.devs|);
      SuspendPassFrame(sys.devs, |sys.devs|);
      SuspendPassOk(sys.devs, |sys.devs|);
      if !sp.ok {
        SuspendPassEvents(sys.devs, |sys.devs|);
      } else {
        var rs := ResumeDevices(sp.devs, sp.moved);
        SuspendPassMoved(sys.devs, |sys.devs|);
        ResumePassFrame(sp.devs, sp.moved);
        forall j | 0 <= j < |sys.devs|
          ensures rs.devs[j] == sys.devs[j].(state := rs.devs[j].state)
          ensures !WillSuspend(sys.devs[j]) ==> rs.devs[j] == sys.devs[j]
        {
          if !WillSuspend(sys.devs[j]) {
            assert j !in sp.moved;
          }
        }
      }
    }
  }

  /** The hardware is only ever asked for the decided state, never for
      `Active`, and only the devices the suspend pass acts on have their
      callbacks run: never one that is not ready, is locked, or is held by
      runtime references. */
  lemma IdleCycleCalls(sys: System, cpu: uint8, choice: StateInfo)
    requires HasCpu(sys.policy, cpu)
    ensures var c := IdleCycle(sys, cpu, choice);
      && (forall e :: e in c.events && e.StateSet? ==>
            e.info == Decide(sys.policy, cpu, choice).info && e.info.state != PmState.Active)
      && (forall e :: e in c.events && e.ActionCall? ==>
            e.dev < |sys.devs| && WillSuspend(sys.devs[e.dev]))
  {
    var dec := Decide(sys.policy, cpu, choice);
    var info := dec.info;
    var c := IdleCycle(sys, cpu, choice);
    if info.state != PmState.Active {
      var sp := SuspendDevices(sys.devs, |sys.devs|);
      SuspendPassEvents(sys.devs, |sys.devs|);
      if sp.ok {
        var entry := NotifierEvents(TransitionCalls(sys.notifiers, ActiveInfo, info), View(sp.devs));
        var hw := [StateSet(info, View(sp.devs)), ExitPostOps(info)];
        var rs := ResumeDevices(sp.devs, sp.moved);
        SuspendPassMoved(sys.devs, |sys.devs|);
        ResumePassEvents(sp.devs, sp.moved);
        var exit := NotifierEvents(TransitionCalls(sys.notifiers, info, ActiveInfo), View(rs.devs));
        assert c.events == sp.events + entry + hw + rs.events + exit;
        forall e | e in c.events
          ensures e.StateSet? ==> e.info == info && info.state != PmState.Active
          ensures e.ActionCall? ==> e.dev < |sys.devs| && WillSuspend(sys.devs[e.dev])
        {
          if e in rs.events {
            assert e.dev in sp.moved;
          } else if e in entry {
            var i :| 0 <= i < |entry| && entry[i] == e;
          } else if e in exit {
            var i :| 0 <= i < |exit| && exit[i] == e;
          }
        }
      }
    }
  }

  /** Entry notifiers run before the hardware is put into the state, exit
      notifiers after it. */
  ghost predicate NotifiersAroundStateSet(events: seq<Event>)
  {
    forall p, q :: 0 <= p < |events| && 0 <= q < |events| && events[p].NotifierCall? && events[q].StateSet? ==>
      (events[p].call.direction == STATE_ENTRY <==> p < q)
  }

  /** Suspend callbacks run before the hardware is put into the state,
      resume callbacks after it. */
  ghost predicate ActionsAroundStateSet(events: seq<Event>)
  {
    forall p, q :: 0 <= p < |events| && 0 <= q < |events| && events[p].ActionCall? && events[q].StateSet? ==>
      (events[p].action == Suspend <==> p < q)
  }

  /** The transition proceeds past the suspend pass. */
  ghost predicate Proceeds(sys: System, cpu: uint8, choice: StateInfo)
    requires HasCpu(sys.policy, cpu)
  {
    Decide(sys.policy, cpu, choice).info.state != PmState.Active && SuspendSucceeds(sys.devs, |sys.devs|)
  }

  /** Notifier callbacks made for calls all in one direction. */
  lemma NotifierEventsDirection(calls: seq<Call>, view: seq<DeviceState>, dir: uint8)
    requires forall c :: c in calls ==> c.direction == dir
    ensures forall e :: e in NotifierEvents(calls, view) ==> e.NotifierCall? && e.call.direction == dir
  {
    var es := NotifierEvents(calls, view);
    forall e | e in es ensures e.NotifierCall? && e.call.direction == dir {
      var i :| 0 <= i < |es| && es[i] == e;
      assert calls[i] in calls;
    }
  }

  /** The shape of a transition that reaches the hardware: suspend
      callbacks, entry notifiers, the two hooks, resume callbacks, exit
      notifiers. */
  lemma TraceShape(a: seq<Event>, entry: seq<Event>, info: StateInfo, v: seq<DeviceState>, r: seq<Event>, exit: seq<Event>)
    requires forall e :: e in a ==> e.ActionCall? && e.action == Suspend
    requires forall e :: e in entry ==> e.NotifierCall? && e.call.direction == STATE_ENTRY
    requires forall e :: e in r ==> e.ActionCall? && e.action == Resume
    requires forall e :: e in exit ==> e.NotifierCall? && e.call.direction == STATE_EXIT
    ensures var events := a + entry + [StateSet(info, v), ExitPostOps(info)] + r + exit;
      && NotifiersAroundStateSet(events)
      && ActionsAroundStateSet(events)
      && events[|a| + |entry|] == StateSet(info, v)
      && events[|a| + |entry| + 1] == ExitPostOps(info)
  {
    var hw := [StateSet(info, v), ExitPostOps(info)];
    var events := a + entry + hw + r + exit;
    var k := |a| + |entry|;
    forall p | 0 <= p < |events|
      ensures events[p].StateSet? <==> p == k
      ensures events[p].NotifierCall? ==> (events[p].call.direction == STATE_ENTRY <==> p < k)
      ensures events[p].ActionCall? ==> (events[p].action == Suspend <==> p < k)
    {
      if p < |a| {
        assert events[p] == a[p] && a[p] in a;
      } else if p < k {
        assert events[p] == entry[p - |a|] && entry[p - |a|] in entry;
      } else if p < k + 2 {
        assert events[p] == hw[p - k];
      } else if p < k + 2 + |r| {
        assert events[p] == r[p - k - 2] && r[p - k - 2] in r;
      } else {
        assert events[p] == exit[p - k - 2 - |r|] && exit[p - k - 2 - |r|] in exit;
      }
    }
  }

  /** The idle path's trace: entry notifiers and suspend callbacks before
      `pm_state_set`, exit notifiers and resume callbacks after it, and
      `pm_state_set` reached exactly when the decision is not `Active` and
      the suspend pass succeeds. */
  lemma {:induction false} IdleCycleTrace(sys: System, cpu: uint8, choice: StateInfo)
    requires HasCpu(sys.policy, cpu)
    ensures var c := IdleCycle(sys, cpu, choice);
      && NotifiersAroundStateSet(c.events)
      && ActionsAroundStateSet(c.events)
      && (Proceeds(sys, cpu, choice) <==> exists q :: 0 <= q < |c.events| && c.events[q].StateSet?)
  {
    var dec := Decide(sys.policy, cpu, choice);
    var info := dec.info;
    var c := IdleCycle(sys, cpu, choice);
    if info.state != PmState.Active {
      var sp := SuspendDevices(sys.devs, |sys.devs|);
      SuspendPassEvents(sys.devs, |sys.devs|);
      SuspendPassOk(sys.devs, |sys.devs|);
      if sp.ok {
        var entryCalls := TransitionCalls(sys.notifiers, ActiveInfo, info);
        var entry := NotifierEvents(entryCalls, View(sp.devs));
        var rs := ResumeDevices(sp.devs, sp.moved);
        ResumePassEvents(sp.devs, sp.moved);
        var exitCalls := TransitionCalls(sys.notifiers, info, ActiveInfo);
        var exit := NotifierEvents(exitCalls, View(rs.devs));
        NotifierEventsDirection(entryCalls, View(sp.devs), STATE_ENTRY);
        NotifierEventsDirection(exitCalls, View(rs.devs), STATE_EXIT);
        TraceShape(sp.events, entry, info, View(sp.devs), rs.events, exit);
        assert c.events[|sp.events| + |entry|].StateSet?;
      } else {
        forall p | 0 <= p < |c.events| ensures c.events[p].ActionCall? {
          assert c.events[p] in sp.events;
        }
      }
    }
  }

  /** The notifier callbacks made for `calls` are exactly those calls, each
      seeing `view`. */
  lemma NotifierEventsMembers(calls: seq<Call>, view: seq<DeviceState>)
    ensures forall e :: e in NotifierEvents(calls, view) <==> e.NotifierCall? && e.view == view && e.call in calls
  {
    var es := NotifierEvents(calls, view);
    forall e | e in es ensures e.NotifierCall? && e.view == view && e.call in calls {
      var i :| 0 <= i < |es| && es[i] == e;
      assert calls[i] in calls;
    }
    forall e: Event | e.NotifierCall? && e.view == view && e.call in calls ensures e in es {
      var i :| 0 <= i < |calls| && calls[i] == e.call;
      assert es[i] == e;
    }
  }

  /** A transition that reaches the hardware, piece by piece: the suspend
      pass, the entry notifiers seeing the suspended devices, the hooks, the
      resume pass over the devices suspended, and the exit notifiers seeing
      the resumed devices. */
  lemma IdleCycleParts(sys: System, cpu: uint8, choice: StateInfo)
    requires HasCpu(sys.policy, cpu) && Proceeds(sys, cpu, choice)
    ensures var info := Decide(sys.policy, cpu, choice).info;
      var sp := SuspendDevices(sys.devs, |sys.devs|);
      var rs := ResumeDevices(sp.devs, sp.moved);
      var c := IdleCycle(sys, cpu, choice);
      && sp.ok
      && c.sys.devs == rs.devs
      && c.events == sp.events
           + NotifierEvents(Dispatch(sys.notifiers, STATE_ENTRY, KeyOf(info)), SuspendedView(sys.devs))
           + [StateSet(info, SuspendedView(sys.devs)), ExitPostOps(info)]
           + rs.events
           + NotifierEvents(Dispatch(sys.notifiers, STATE_EXIT, KeyOf(info)), View(rs.devs))
  {
    SuspendPassOk(sys.devs, |sys.devs|);
    SuspendPassResult(sys.devs);
  }

  /** In a trace shaped like a transition that reaches the hardware, the
      entry notifiers and `pm_state_set` share one view, the exit notifiers
      another, and each notifier call listed is made. */
  lemma NotifierShape(a: seq<Event>, entryCalls: seq<Call>, v: seq<DeviceState>, info: StateInfo,
                      r: seq<Event>, exitCalls: seq<Call>, w: seq<DeviceState>, events: seq<Event>)
    requires events == a + NotifierEvents(entryCalls, v) + [StateSet(info, v), ExitPostOps(info)] + r + NotifierEvents(exitCalls, w)
    requires forall e :: e in a ==> e.ActionCall?
    requires forall e :: e in r ==> e.ActionCall?
    requires forall c :: c in entryCalls ==> c.direction == STATE_ENTRY
    requires forall c :: c in exitCalls ==> c.direction == STATE_EXIT
    ensures forall e :: e in events && e.StateSet? ==> e.view == v
    ensures forall e :: e in events && e.NotifierCall? && e.call.direction == STATE_ENTRY ==>
      e.view == v && e.call in entryCalls
    ensures forall e :: e in events && e.NotifierCall? && e.call.direction == STATE_EXIT ==>
      e.view == w && e.call in exitCalls
    ensures forall c :: c in entryCalls ==> NotifierCall(c, v) in events
    ensures forall c :: c in exitCalls ==> NotifierCall(c, w) in events
  {
    NotifierEventsMembers(entryCalls, v);
    NotifierEventsMembers(exitCalls, w);
  }

  /** Entry notifiers and `pm_state_set` see the devices as the suspend
      pass leaves them; the entry notifiers called are exactly those
      registered for the decided state with the entry bit set. */
  lemma IdleCycleEntry(sys: System, cpu: uint8, choice: StateInfo)
    requires HasCpu(sys.policy, cpu) && Proceeds(sys, cpu, choice)
    ensures var c := IdleCycle(sys, cpu, choice);
      var key := KeyOf(Decide(sys.policy, cpu, choice).info);
      && (forall e :: e in c.events && e.StateSet? ==> e.view == SuspendedView(sys.devs))
      && (forall e :: e in c.events && e.NotifierCall? && e.call.direction == STATE_ENTRY ==>
            e.view == SuspendedView(sys.devs) && e.call in Dispatch(sys.notifiers, STATE_ENTRY, key))
      && (forall i :: 0 <= i < |sys.notifiers| && Selects(sys.notifiers[i], STATE_ENTRY, key) ==>
            NotifierCall(CallOf(sys.notifiers[i], STATE_ENTRY), SuspendedView(sys.devs)) in c.events)
  {
    var info := Decide(sys.policy, cpu, choice).info;
    var key := KeyOf(info);
    var sp := SuspendDevices(sys.devs, |sys.devs|);
    var rs := ResumeDevices(sp.devs, sp.moved);
    var entryCalls := Dispatch(sys.notifiers, STATE_ENTRY, key);
    IdleCycleParts(sys, cpu, choice);
    SuspendPassEvents(sys.devs, |sys.devs|);
    ResumePassEvents(sp.devs, sp.moved);
    NotifierShape(sp.events, entryCalls, SuspendedView(sys.devs), info,
                  rs.events, Dispatch(sys.notifiers, STATE_EXIT, key), View(rs.devs), IdleCycle(sys, cpu, choice).events);
    forall i | 0 <= i < |sys.notifiers| && Selects(sys.notifiers[i], STATE_ENTRY, key)
      ensures CallOf(sys.notifiers[i], STATE_ENTRY) in entryCalls
    {
    }
  }

  /** Exit notifiers see the devices as the resume pass leaves them; the
      exit notifiers called are exactly those registered for the state
      left with the exit bit set. */
  lemma IdleCycleExit(sys: System, cpu: uint8, choice: StateInfo)
    requires HasCpu(sys.policy, cpu) && Proceeds(sys, cpu, choice)
    ensures var c := IdleCycle(sys, cpu, choice);
      var key := KeyOf(Decide(sys.policy, cpu, choice).info);
      && (forall e :: e in c.events && e.NotifierCall? && e.call.direction == STATE_EXIT ==>
            e.view == View(c.sys.devs) && e.call in Dispatch(sys.notifiers, STATE_EXIT, key))
      && (forall i :: 0 <= i < |sys.notifiers| && Selects(sys.notifiers[i], STATE_EXIT, key) ==>
            NotifierCall(CallOf(sys.notifiers[i], STATE_EXIT), View(c.sys.devs)) in c.events)
  {
    var info := Decide(sys.policy, cpu, choice).info;
    var key := KeyOf(info);
    var sp := SuspendDevices(sys.devs, |sys.devs|);
    var rs := ResumeDevices(sp.devs, sp.moved);
    var exitCalls := Dispatch(sys.notifiers, STATE_EXIT, key);
    IdleCycleParts(sys, cpu, choice);
    SuspendPassEvents(sys.devs, |sys.devs|);
    ResumePassEvents(sp.devs, sp.moved);
    NotifierShape(sp.events, Dispatch(sys.notifiers, STATE_ENTRY, key), SuspendedView(sys.devs), info,
                  rs.events, exitCalls, View(rs.devs), IdleCycle(sys, cpu, choice).events);
    forall i | 0 <= i < |sys.notifiers| && Selects(sys.notifiers[i], STATE_EXIT, key)
      ensures CallOf(sys.notifiers[i], STATE_EXIT) in exitCalls
    {
    }
  }

  /** Every notifier callback on the idle path is told entry or exit. */
  lemma IdleCycleNotifierDirections(sys: System, cpu: uint8, choice: StateInfo)
    requires HasCpu(sys.policy, cpu) && Proceeds(sys, cpu, choice)
    ensures forall e :: e in IdleCycle(sys, cpu, choice).events && e.NotifierCall? ==>
      e.call.direction == STATE_ENTRY || e.call.direction == STATE_EXIT
  {
    var info := Decide(sys.policy, cpu, choice).info;
    var sp := SuspendDevices(sys.devs, |sys.devs|);
    var rs := ResumeDevices(sp.devs, sp.moved);
    IdleCycleParts(sys, cpu, choice);
    SuspendPassEvents(sys.devs, |sys.devs|);
    ResumePassEvents(sp.devs, sp.moved);
    NotifierEventsDirection(Dispatch(sys.notifiers, STATE_ENTRY, KeyOf(info)), SuspendedView(sys.devs), STATE_ENTRY);
    NotifierEventsDirection(Dispatch(sys.notifiers, STATE_EXIT, KeyOf(info)), View(rs.devs), STATE_EXIT);
  }

  /** When every callback succeeds, the idle path gives back exactly the
      devices it started from: the exit notifiers see them as they were
      before the transition. */
  lemma IdleCycleRestores(sys: System, cpu: uint8, choice: StateInfo)
    requires HasCpu(sys.policy, cpu)
    requires forall j :: 0 <= j < |sys.devs| ==> Settled(sys.devs[j])
    requires SuspendSucceeds(sys.devs, |sys.devs|)
    requires forall j :: 0 <= j < |sys.devs| && WillSuspend(sys.devs[j]) ==> Resume !in sys.devs[j].failsOn
    ensures IdleCycle(sys, cpu, choice).ok
    ensures IdleCycle(sys, cpu, choice).sys.devs == sys.devs
  {
    SuspendResumeRoundTrip(sys.devs);
  }

  /** Successive entries of the idle thread on CPU `cpu`, the policy hook
      answering `choices` in turn: the system after them and the
      concatenated trace. */
  function IdleCycles(sys: System, cpu: uint8, choices: seq<StateInfo>): (r: (System, seq<Event>))
    requires HasCpu(sys.policy, cpu)
    ensures HasCpu(r.0.policy, cpu)
    decreases |choices|
  {
    if choices == [] then (sys, [])
    else
      var c := IdleCycle(sys, cpu, choices[0]);
      var rest := IdleCycles(c.sys, cpu, choices[1..]);
      (rest.0, c.events + rest.1)
  }

  /** A device the suspend pass excludes (not ready, locked, or held by
      runtime references) keeps its state and never has its callback run,
      however many times the system goes idle. */
  lemma {:induction false} ExcludedDeviceUntouched(sys: System, cpu: uint8, choices: seq<StateInfo>, d: nat)
    requires HasCpu(sys.policy, cpu)
    requires d < |sys.devs| && !Eligible(sys.devs[d])
    ensures var r := IdleCycles(sys, cpu, choices);
      && d < |r.0.devs| && r.0.devs[d] == sys.devs[d]
      && forall e :: e in r.1 && e.ActionCall? ==> e.dev != d
    decreases |choices|
  {
    if choices != [] {
      var c := IdleCycle(sys, cpu, choices[0]);
      IdleCycleCalls(sys, cpu, choices[0]);
      IdleCycleFrame(sys, cpu, choices[0]);
      ExcludedDeviceUntouched(c.sys, cpu, choices[1..], d);
    }
  }

  /** Suspend callbacks run from the highest device index down, resume
      callbacks from the lowest up. */
  ghost predicate PassOrder(events: seq<Event>)
  {
    forall p, q :: 0 <= p < q < |events| && events[p].ActionCall? && events[q].ActionCall? && events[p].action == events[q].action ==>
      if events[p].action == Suspend then events[p].dev > events[q].dev else events[p].dev < events[q].dev
  }

  lemma OrderShape(a: seq<Event>, mid: seq<Event>, r: seq<Event>, tail: seq<Event>)
    requires CallsDescending(a) && forall e :: e in a ==> e.ActionCall? && e.action == Suspend
    requires forall e :: e in mid ==> !e.ActionCall?
    requires CallsAscending(r) && forall e :: e in r ==> e.ActionCall? && e.action == Resume
    requires forall e :: e in tail ==> !e.ActionCall?
    ensures PassOrder(a + mid + r + tail)
  {
    var events := a + mid + r + tail;
    var k := |a| + |mid|;
    forall p | 0 <= p < |events| && events[p].ActionCall?
      ensures p < |a| ==> events[p] == a[p]
      ensures p >= |a| ==> k <= p < k + |r| && events[p] == r[p - k]
      ensures events[p].action == Suspend <==> p < |a|
    {
      if p < |a| {
        assert events[p] == a[p] && a[p] in a;
      } else if p < k {
        assert false;
      } else if p < k + |r| {
        assert events[p] == r[p - k] && r[p - k] in r;
      } else {
        assert false;
      }
    }
    forall p, q | 0 <= p < q < |events| && events[p].ActionCall? && events[q].ActionCall? && events[p].action == events[q].action
      ensures if events[p].action == Suspend then events[p].dev > events[q].dev else events[p].dev < events[q].dev
    {
      if q < |a| {
        assert a[p].ActionCall? && a[q].ActionCall?;
      } else if p >= |a| {
        assert r[p - k].ActionCall? && r[q - k].ActionCall?;
      }
    }
  }

  /** Notifier callbacks are not device callbacks. */
  lemma NotifierEventsNoActions(calls: seq<Call>, view: seq<DeviceState>)
    ensures forall e :: e in NotifierEvents(calls, view) ==> !e.ActionCall?
  {
    var es := NotifierEvents(calls, view);
    forall e | e in es ensures !e.ActionCall? {
      var i :| 0 <= i < |es| && es[i] == e;
    }
  }

  /** Pass order in a trace shaped like a transition that reaches the
      hardware. */
  lemma OrderOfParts(a: seq<Event>, entryCalls: seq<Call>, v: seq<DeviceState>, info: StateInfo,
                     r: seq<Event>, exitCalls: seq<Call>, w: seq<DeviceState>, events: seq<Event>)
    requires events == a + NotifierEvents(entryCalls, v) + [StateSet(info, v), ExitPostOps(info)] + r + NotifierEvents(exitCalls, w)
    requires CallsDescending(a) && forall e :: e in a ==> e.ActionCall? && e.action == Suspend
    requires CallsAscending(r) && forall e :: e in r ==> e.ActionCall? && e.action == Resume
    ensures PassOrder(events)
  {
    var entry := NotifierEvents(entryCalls, v);
    var tail := NotifierEvents(exitCalls, w);
    NotifierEventsNoActions(entryCalls, v);
    NotifierEventsNoActions(exitCalls, w);
    var mid := entry + [StateSet(info, v), ExitPostOps(info)];
    assert events == a + mid + r + tail;
    OrderShape(a, mid, r, tail);
  }

  /** The pass order of a transition that reaches the hardware. */
  lemma ProceedingDeviceOrder(sys: System, cpu: uint8, choice: StateInfo)
    requires HasCpu(sys.policy, cpu) && Proceeds(sys, cpu, choice)
    ensures PassOrder(IdleCycle(sys, cpu, choice).events)
  {
    var info := Decide(sys.policy, cpu, choice).info;
    var sp := SuspendDevices(sys.devs, |sys.devs|);
    var rs := ResumeDevices(sp.devs, sp.moved);
    IdleCycleParts(sys, cpu, choice);
    SuspendPassOrder(sys.devs, |sys.devs|);
    SuspendPassMoved(sys.devs, |sys.devs|);
    ResumePassOrder(sp.devs, sp.moved);
    SuspendPassEvents(sys.devs, |sys.devs|);
    ResumePassEvents(sp.devs, sp.moved);
    OrderOfParts(sp.events, Dispatch(sys.notifiers, STATE_ENTRY, KeyOf(info)), SuspendedView(sys.devs), info,
                 rs.events, Dispatch(sys.notifiers, STATE_EXIT, KeyOf(info)), View(rs.devs), IdleCycle(sys, cpu, choice).events);
  }

  /** On the idle path the suspend callbacks run in reverse
      initialization order and the resume callbacks in initialization
      order. */
  lemma IdleCycleDeviceOrder(sys: System, cpu: uint8, choice: StateInfo)
    requires HasCpu(sys.policy, cpu)
    ensures PassOrder(IdleCycle(sys, cpu, choice).events)
  {
    var info := Decide(sys.policy, cpu, choice).info;
    if info.state != PmState.Active {
      if SuspendSucceeds(sys.devs, |sys.devs|) {
        ProceedingDeviceOrder(sys, cpu, choice);
      } else {
        var sp := SuspendDevices(sys.devs, |sys.devs|);
        SuspendPassOrder(sys.devs, |sys.devs|);
        SuspendPassEvents(sys.devs, |sys.devs|);
        SuspendPassOk(sys.devs, |sys.devs|);
        assert IdleCycle(sys, cpu, choice).events == sp.events + [] + [] + [];
        OrderShape(sp.events, [], [], []);
      }
    }
  }
}

=== FILE: types.dfy ===
/** Shared vocabulary of the power-management model: C integer widths,
    an optional value, the system power states and the `pm_state_info`
    record. */
module PmTypes {

  /** `uint8_t` */
  type uint8 = x: int | 0 <= x < 0x100

  /** `int8_t` */
  type int8 = x: int | -0x80 <= x < 0x80

  /** The implicit conversion of a `uint8_t` value to `int8_t` in a C return
      statement: two's complement wrap-around above 127. */
  function ToInt8(v: uint8): (r: int8)
    ensures (r + 0x100) % 0x100 == v
    ensures r >= 0 <==> v < 0x80
  {
    if v < 0x80 then v else v - 0x100
  }

  datatype Option<T> = None | Some(value: T)

  /** `errno` values of the minimal C library. */
  const ENOSYS: int := 88
  const EINVAL: int := 22

  /** `enum pm_state`; `Active` is the sentinel "no transition". */
  datatype PmState =
    | Active
    | RuntimeIdle
    | SuspendToIdle
    | Standby
    | SuspendToRam
    | SuspendToDisk
    | SoftOff

  /** `struct pm_state_info`: a system power state, its substate, and the
      two timing figures in microseconds. */
  datatype StateInfo = StateInfo(
    state: PmState,
    substateId: uint8,
    minResidencyUs: nat,
    exitLatencyUs: nat)

  /** The pair a power state is looked up by. */
  predicate Matches(s: StateInfo, state: PmState, substateId: uint8)
  {
    s.state == state && s.substateId == substateId
  }
}
